=== FILE: README.md ===
# Bedrock response post-processing, modelled in Dafny

This project models the text handling of a small Amazon Bedrock chat client. The client sends a
conversation to the `openai.gpt-oss-20b-1:0` model, receives a JSON body, and must pull the
generated text out of it. The model may answer in several response shapes, and its text can
contain `<reasoning>…</reasoning>` blocks that the user should not see.

Three pieces are modelled:

- **`clean_response_text`** (`bedrock_core.py`). It deletes every non-greedy
  `<reasoning>.*?</reasoning>` span, where `.` also matches newlines, and then strips the
  surrounding whitespace. A falsy input gives `""`.
- **The response-shape dispatch** (in `send_message_to_bedrock`, and again in
  `bedrock_test_clean.py`). The generated text is taken from the first of these that applies:
  1. `choices[0].message.content`, else `choices[0].text`;
  2. the concatenation of `results[*].content[*].text`;
  3. `response`;
  4. `content`;
  5. `text`;
  6. otherwise `""`.

  Any exception raised on the way becomes the string `"Error: …"`.
- **The script's cleanup chain** (`bedrock_test_clean.py`). First, reasoning removal and strip.
  If that leaves nothing, the script falls back to the sentences the regex
  `[A-Z][^<]*?[.!?](?:\s|$)` finds. It keeps at most two of them, joined by a space, and prefers
  those without a reasoning phrase. When no sentence is found, it deletes every `<[^>]*>` and
  strips.

Modules:

| module | file | contents |
|---|---|---|
| `Text` | `text.dfy` | Python's whitespace set, substring search, `in` on strings, `str.strip()` |
| `Spans` | `spans.dfy` | `re.sub(open + '.*?' + close, '', s, flags=re.DOTALL)` as a left-to-right scan. It serves both the reasoning pattern and `<[^>]*>`, which is the same scan with `<` and `>`. |
| `Json` | `json.dfy` | a parsed JSON value and the Python operations the dispatch applies to it, each with the exception it raises on a wrong type |
| `BedrockCore` | `bedrock_core.dfy` | `clean_response_text`, the dispatch, and the reply of `send_message_to_bedrock` |
| `CleanScript` | `clean_script.dfy` | the sentence search, the keyword filter, the tag stripping, and the script's output |

How the model represents the source:

- **Results.** A Python computation that may raise is a `Result`. `Err` records the exception
  class only.
- **JSON objects.** An object is a list of members in document order. Looking up a key takes the
  last binding, as the dict built by `json.loads` does.
- **Regex scan.** The regex substitution is the function `Spans.Scan`. At each position it looks
  for the opener. If the opener is there and a closer follows it somewhere, the whole span is
  dropped and the scan resumes after the closer. Otherwise one character is kept.

## Model

| member | source | states |
|---|---|---|
| `Text.Trim` | bedrock_core.py:13 | The result is the input with only leading and trailing whitespace removed: a contiguous slice, whitespace outside it, and neither end of it whitespace. |
| `Text.StripsToUnique` | bedrock_core.py:13 | Any slice that removes only end whitespace and leaves no whitespace at either end is exactly what `strip()` returns. |
| `Text.TrimIdempotent` | bedrock_core.py:13 | Stripping twice is the same as stripping once. |
| `Text.OccurrenceSurvivesTrim` | bedrock_core.py:13 | Stripping keeps every occurrence of a pattern whose first and last characters are not whitespace. |
| `Text.ContainsIff` | bedrock_test_clean.py:80 | `pat in s` on strings holds exactly when `pat` occurs at some position of `s`. |
| `Spans.Scan` | bedrock_core.py:12 | The substitution never lengthens the text. What it deletes and what it keeps is stated by `DeletesFirstBlock` and `KeepsTailWithoutBlock`. |
| `Spans.DeletesFirstBlock` | bedrock_core.py:12 | With the first opener at `o` and the first closer after it at `c`, the output is the text before `o` followed by the scan from just past the closer. |
| `Spans.KeepsTailWithoutBlock` | bedrock_core.py:12 | When there is no opener from `i` on, or the first opener has no closer after it, the rest of the text is kept unchanged. |
| `Spans.BlockRemoved` | bedrock_core.py:12 | For `pre + open + inner + close + post`, where `pre` holds no opener and `inner` no closer, the output is `pre` followed by the output for `post`. |
| `Spans.UnclosedTailKept` | bedrock_core.py:12 | An opener with no closer anywhere after it is not a match: the output ends with the whole input from that opener on. |
| `Spans.NoOpenNoChange` | bedrock_core.py:12 | A text with no opener passes through the substitution unchanged. |
| `Json.Lookup` | bedrock_core.py:42 | A key is bound exactly when some member has it, and the value is that of the last such member. |
| `Json.Truthy` | bedrock_test_clean.py:61 | A value is falsy exactly when it is null, `false`, zero, or an empty string, list or object. |
| `Json.DictKeys` | bedrock_core.py:53-54 | The keys an object iterates over are pairwise distinct, and none of them was already seen. |
| `Json.DictKeysSound` | bedrock_core.py:53-54 | Every listed key is bound in the object. |
| `Json.DictKeysComplete` | bedrock_core.py:53-54 | Every key of the object that was not already seen is listed. |
| `Json.DictKeysInOrder` | bedrock_core.py:53-54 | Keys come in first-insertion order: of two listed keys, the earlier one has a member before every member of the later one. |
| `Json.In` | bedrock_core.py:46-48 | `key in v` is dict membership on an object and raises `TypeError` on null, booleans and numbers. |
| `Json.Index` | bedrock_core.py:47-49 | `v[key]` succeeds exactly on an object that binds the key, and returns the bound value. On an object without the key it raises `KeyError`; on any other value it raises `TypeError`. |
| `Json.NonEmpty` | bedrock_core.py:46 | `len(v) > 0` is defined exactly for strings, lists and objects, and there it agrees with truthiness. `len` of null, a boolean or a number raises `TypeError`. |
| `Json.First` | bedrock_core.py:47 | `v[0]` gives a non-empty list's first item, or a non-empty string's first character. An empty list or string raises `IndexError`, an object raises `KeyError` (JSON keys are strings, never `0`), and null, booleans and numbers raise `TypeError`. |
| `Json.Iterate` | bedrock_core.py:53-54 | `for x in v` visits a list's items, a string's characters in order, or an object's keys as listed by `DictKeys`. Null, booleans and numbers raise `TypeError`. |
| `Json.Get` | bedrock_core.py:54 | `.get(key, default)` returns the bound value, or the default when the key is absent. It is defined exactly on objects, and any other value raises `AttributeError`. |
| `BedrockCore.RemoveReasoning` | bedrock_core.py:12 | Removing reasoning blocks never lengthens the text. |
| `BedrockCore.CleanResponseText` | bedrock_core.py:7-13 | An empty input gives `""`; the result has no whitespace at either end and is no longer than the input. |
| `BedrockCore.CleanWithoutReasoningIsTrim` | bedrock_core.py:12-13 | Text without `<reasoning>` is only stripped; its interior is untouched. |
| `BedrockCore.NoCloserStraddlesOpener` | bedrock_core.py:12 | No `</reasoning>` can overlap a `<reasoning>`, so an opener cannot be swallowed by an earlier closer. |
| `BedrockCore.UnclosedReasoningKept` | bedrock_core.py:12 | A `<reasoning>` with no `</reasoning>` after it is left in place, and the cleaned text ends with everything from it on. |
| `BedrockCore.UnclosedReasoningSurvivesClean` | bedrock_core.py:7-13 | Such an unclosed opener is still present after the strip. |
| `BedrockCore.ReasoningBlockRemoved` | bedrock_core.py:12 | A complete block is cut out: the text before the first opener is kept, and the rest after the first closer is cleaned in the same way. |
| `BedrockCore.ReasoningKeptWithoutBlock` | bedrock_core.py:12 | A text with no `<reasoning>`, or with no `</reasoning>` after its first `<reasoning>`, is left unchanged. |
| `BedrockCore.ReasoningBlockCleaned` | bedrock_core.py:7-13 | `clean_response_text` of a text with a complete block is the text before the block, followed by the cleaned rest after the first closer, stripped. |
| `BedrockCore.ConcatMap` | bedrock_core.py:53-56 | The loop completes exactly when no step raises. When it raises, the exception is that of some step all of whose predecessors completed, so the first exception wins. |
| `BedrockCore.ConcatMapAppend` | bedrock_core.py:53-56 | The accumulating loop over a list splits at any point into the loops over the two parts, and the first exception wins. |
| `BedrockCore.ConcatMapSingle` | bedrock_core.py:53-56 | The loop over a single item is that item's contribution. |
| `BedrockCore.ConcatMapQuiet` | bedrock_core.py:53-56 | A loop whose every step adds nothing or raises the same exception raises it exactly when some step does, and otherwise adds nothing. |
| `BedrockCore.PartText` | bedrock_core.py:55-56 | An object part without `"text"` adds nothing. A string `"text"` adds that string, and any other `"text"` value raises `TypeError` when added to the string. A null, boolean or number part raises `TypeError` at `"text" in c`. A string or list part raises `TypeError` at `c["text"]` when it contains `"text"`, and otherwise adds nothing. |
| `BedrockCore.ItemText` | bedrock_core.py:54-56 | A non-object item raises `AttributeError` on `.get`. An item without `"content"` adds nothing. A list of parts adds the parts' texts in order. A null, boolean or number `content` raises `TypeError`. A string `content` adds nothing, since no single character contains `"text"`. An object `content` raises `TypeError` when one of its keys contains `"text"`, and otherwise adds nothing. |
| `BedrockCore.ResultsText` | bedrock_core.py:52-56 | A list of `results` gives the items' texts concatenated in order. A null, boolean or number `results` raises `TypeError`, with no fall-through to `response`. An empty string or object gives `""`. A non-empty one raises `AttributeError`, because its characters or keys are strings without `.get`. |
| `BedrockCore.ResultsInOrder` | bedrock_core.py:52-56 | The `results` text of two runs of items is the first run's text followed by the second's. |
| `BedrockCore.ChoiceText` | bedrock_core.py:47-51 | When the choice's `message` is an object that binds `content`, that content is taken. When `"content" in message` raises or holds for a non-object message, the result is `TypeError`. When the choice has no `message`, or `"content" in message` is false, the choice's `text` is taken, or `""` if it has none. A null, boolean or number choice raises `TypeError`. A string or list choice raises `TypeError` if it contains `"message"` or `"text"`, and otherwise gives `""`. |
| `BedrockCore.TextOfChoice` | bedrock_core.py:50-51 | `elif "text" in choice` takes an object choice's `text`, or `""` when it has none. A null, boolean or number choice raises `TypeError`. A string or list choice that contains `"text"` raises `TypeError` at `choice["text"]`, and otherwise gives `""`. |
| `BedrockCore.TextWithoutChoices` | bedrock_core.py:52-63 | Without a usable `choices`, the first present key among `results`, `response`, `content` and `text` decides. `results` gives the items' texts or their exception, and the other three give their bound value. With none of them the text is `""`. |
| `BedrockCore.ExtractText` | bedrock_core.py:44-63 | With a non-empty `choices` list, only its first element decides the text. A `choices` of null, a boolean or a number raises `TypeError` at `len`, with no fall-through. A non-empty object raises `KeyError` at `[0]`. A non-empty string makes its first character the choice. With none of the five keys present, the text is `""`. |
| `BedrockCore.FirstTaken` | bedrock_core.py:46-63 | Returns the first key in a priority list whose branch the body selects, with no earlier key selected; it returns none when no key is selected. |
| `BedrockCore.DispatchFollowsPriority` | bedrock_core.py:44-63 | Priority is choices > results > response > content > text. The first key the body selects alone decides the extracted value, and the value is `""` when no key is selected. |
| `BedrockCore.SendMessageText` | bedrock_core.py:44-65 | An exception in the dispatch is passed on unchanged. Otherwise the extracted value is handed to `CleanValue`: a string is returned cleaned, and a falsy value gives `""`. Any returned text is stripped. |
| `BedrockCore.CleanValue` | bedrock_core.py:65 | A string is cleaned by `clean_response_text`. Any other falsy value gives `""`, and a truthy non-string makes `re.sub` raise `TypeError`. Any result is stripped. |
| `BedrockCore.Reply` | bedrock_core.py:34-68 | The reply is the cleaned text on success, and otherwise starts with `"Error: "`. |
| `BedrockCore.ExceptionBecomesError` | bedrock_core.py:44-68 | An exception raised by the dispatch becomes a reply starting with `"Error: "`. |
| `CleanScript.SentenceStop` | bedrock_test_clean.py:77 | The lazy `[^<]*?[.!?](?:\s|$)` from `j` stops at the first terminator followed by whitespace or the end, provided no `<` comes before it; otherwise there is no match. |
| `CleanScript.SentenceAt` | bedrock_test_clean.py:77 | A match starts at `i` exactly when `s[i]` is an upper-case ASCII letter and the lazy tail finds a stop after it. The match then ends just past the stop, together with the whitespace after it, and is sentence-shaped: a capital, no `<`, and a terminator, optionally followed by one whitespace character. |
| `CleanScript.Sentences` | bedrock_test_clean.py:77 | Every string `findall` returns is such a sentence. |
| `CleanScript.SentencesFrom` | bedrock_test_clean.py:77 | `findall` continues at the first position that starts a match. That match, the slice `s[p..e]`, is the next item, and the search resumes at its end, so the matches are left-to-right and non-overlapping. |
| `CleanScript.NoSentencesIff` | bedrock_test_clean.py:77-78 | `findall` returns nothing exactly when no position starts a match. |
| `CleanScript.ContentSentences` | bedrock_test_clean.py:80 | The filter keeps exactly the sentences without a reasoning phrase, in any letter case. |
| `CleanScript.Lower` | bedrock_test_clean.py:80 | `s.lower()` keeps the length and lowers each ASCII capital at its position, leaving every other character alone. |
| `CleanScript.LooksLikeReasoningIff` | bedrock_test_clean.py:80 | A sentence looks like reasoning exactly when its lower-cased form contains `"we need"`, `"let's"`, `"so we should"` or `"reasoning"`. |
| `CleanScript.JoinWithSpace` | bedrock_test_clean.py:82 | `' '.join(xs)` is `""` for no items, the item itself for one, and the two items with one space between them for two. |
| `CleanScript.ContentSentencesAppend` | bedrock_test_clean.py:80 | The filter distributes over concatenation, so it keeps the original order. |
| `CleanScript.FirstTwo` | bedrock_test_clean.py:82 | `' '.join(xs[:2]).strip()` is `""`, the stripped first item, or the first two items joined by one space and stripped. |
| `CleanScript.SentencePick` | bedrock_test_clean.py:78-84 | The fallback text is stripped, and it is built from the first one or two content sentences whenever there is one. |
| `CleanScript.SentencePickFallsBack` | bedrock_test_clean.py:83-84 | When every sentence looks like reasoning, the first two sentences are used anyway. |
| `CleanScript.SentencePickFiltersReasoning` | bedrock_test_clean.py:80-82 | When some sentence survives the filter, the picked text contains none of the reasoning phrases. |
| `CleanScript.JoinKeepsContent` | bedrock_test_clean.py:82 | Joining two phrase-free sentences with a space creates no phrase across the join. |
| `CleanScript.TrimKeepsContent` | bedrock_test_clean.py:82 | Stripping creates no reasoning phrase. |
| `CleanScript.SentencePickShape` | bedrock_test_clean.py:77-84 | The picked text starts with an upper-case letter and contains no `<`. |
| `CleanScript.StripTags` | bedrock_test_clean.py:87 | Deleting tags never lengthens the text. |
| `CleanScript.StripTagsLeavesNoTag` | bedrock_test_clean.py:87 | After `re.sub(r'<[^>]*>', '', t)` no `<` is followed anywhere later by a `>`. |
| `CleanScript.StripTagsWithoutAngle` | bedrock_test_clean.py:87 | Text without `<` is unchanged by tag deletion. |
| `CleanScript.TagRemoved` | bedrock_test_clean.py:87 | For `pre + "<" + inner + ">" + post`, with no `<` in `pre` and no `>` in `inner`, the tag is deleted: the output is `pre` followed by the output for `post`. |
| `CleanScript.UnclosedTagKept` | bedrock_test_clean.py:87 | A text with no `<`, or with no `>` after its first `<`, is left unchanged. |
| `CleanScript.TrimKeepsNoTag` | bedrock_test_clean.py:87 | Stripping keeps the no-tag property. |
| `CleanScript.CleanText` | bedrock_test_clean.py:66-87 | The cleaned text is stripped, and equals the reasoning-free stripped text whenever that is non-empty. |
| `CleanScript.CleanTextTiers` | bedrock_test_clean.py:72-87 | If reasoning removal empties the text, the result comes from the sentence fallback when sentences are found (it starts with a capital and has no `<`). Otherwise it is the stripped tag-free text, which holds no tag. |
| `CleanScript.ScriptClean` | bedrock_test_clean.py:61-87 | A falsy extraction skips the cleanup and stays empty. A truthy non-string raises. A non-empty string goes through the whole cleanup chain, `CleanText`, and the result equals the core's cleaned text whenever that is non-empty. |
| `CleanScript.ScriptOutput` | bedrock_test_clean.py:89-93 | An exception in the dispatch or the cleanup is passed on. Otherwise the cleaned text is printed, or `"No text generated"` when it is empty. A falsy extraction prints `"No text generated"`, and the printed text is never empty. |
| `CleanScript.ScriptAgreesWithCore` | bedrock_test_clean.py:36-93 | Wherever the library returns non-empty text, the script prints that same text. |

## Left out

- Creating the boto3 client, looking up the region in the environment, and calling
  `invoke_model` (`get_bedrock_client`, `bedrock_core.py:16-23, 35-42`,
  `bedrock_test_clean.py:7-29`). These are network calls into a foreign SDK. The model starts
  from the parsed response body.
- Decoding the JSON bytes with `json.loads`. A body whose top level is not an object is not
  modelled, and numbers are kept as reals without their textual form.
- The message text of exceptions. `Reply` takes `describe`, standing for `str(e)`, as a
  parameter. The script's `"Error occurred: …"` line and its traceback are represented only by
  the `Err` outcome of `ScriptOutput`.
- The debug `print` calls and the `json.dumps` of the whole body in the script (`bedrock_test_clean.py:22`,
  `31`, `62-63`, `69`, `94-95`). They only produce output. The exceptions that `len(...)` or the slice
  raise for a truthy non-string are part of `ScriptClean`'s `Err` case.
- `CleanScript.ScriptClean`: for a non-empty object, the debug slice `generated_text[:200]`
  raises `KeyError` from Python 3.12 on, not `TypeError`. The model keeps `TypeError` throughout,
  since only the exception class differs.
- `CleanScript.LowerChar`: `str.lower()` is modelled for the ASCII letters only. Outside ASCII,
  only U+0130 and the Kelvin sign U+212A lower to text that holds an ASCII letter. U+0130 lowers to
  `i` plus a combining dot, and the Kelvin sign to `k`. None of the reasoning phrases contains `k`,
  and none has an `i` that is followed by a combining dot, so the filter's verdict is the same. The
  model leaves both characters unchanged.
- `Spans.Scan`: its own contract only bounds the length. Its behaviour at each step is stated by
  `DeletesFirstBlock` and `KeepsTailWithoutBlock`.
- `BedrockCore.RemoveReasoning`: its own contract only bounds the length. A text with a complete
  block can always be written as `pre + "<reasoning>" + inner + "</reasoning>" + post`, with no
  opener in `pre` and no closer in `inner`. `ReasoningBlockRemoved` states the deletion for that
  form. `ReasoningKeptWithoutBlock` states that every other text is kept whole. At any position,
  the same two cases are `Spans.DeletesFirstBlock` and `Spans.KeepsTailWithoutBlock`.
- `CleanScript.StripTags`: its own contract only bounds the length. `TagRemoved` states the
  deletion of the first complete tag, and `UnclosedTagKept` states that a text without one is kept.
- `Json.In`: the contract covers objects and the types that raise. For lists and strings it
  states nothing beyond the body (list membership, substring test).
- `bedrock_test.py`, an interactive terminal loop. `app.py`, the Flask routes. `web/app.js`, the
  browser front end. All three are I/O wrappers around the modelled functions. No Markdown
  renderer or sanitiser exists in this code base, so none is modelled.

=== FILE: bedrock_core.dfy ===
/** The response post-processing of `bedrock_core.py`: `clean_response_text`, and the part of
    `send_message_to_bedrock` that runs on the parsed response body — picking the generated text
    out of whichever response shape the model returned, then cleaning it. */
module BedrockCore {
  import opened Text
  import opened Spans
  import opened Json

  const ReasoningOpen: string := "<reasoning>"
  const ReasoningClose: string := "</reasoning>"

  /** `re.sub(r'<reasoning>.*?</reasoning>', '', text, flags=re.DOTALL)`. */
  function RemoveReasoning(text: string): (r: string)
    ensures |r| <= |text|
  {
    Scan(text, ReasoningOpen, ReasoningClose, 0)
  }

  /** `clean_response_text`: an empty text gives "", anything else loses its reasoning blocks and
      the whitespace at both ends. */
  function CleanResponseText(text: string): (r: string)
    ensures |text| == 0 ==> r == ""
    ensures IsTrimmed(r)
    ensures |r| <= |text|
  {
    if |text| == 0 then "" else Trim(RemoveReasoning(text))
  }

  /** A text without a `<reasoning>` opener is only stripped; its interior is untouched. */
  lemma CleanWithoutReasoningIsTrim(text: string)
    requires forall k :: !OccursAt(ReasoningOpen, text, k)
    ensures CleanResponseText(text) == Trim(text)
  {
    NoOpenNoChange(text, ReasoningOpen, ReasoningClose, 0);
    assert text[0..] == text;
  }

  /** A `</reasoning>` never straddles a `<reasoning>`: the closer has no `<` after its first
      character, so it cannot overlap the opener's leading `<`. */
  lemma NoCloserStraddlesOpener(text: string, i: nat)
    requires OccursAt(ReasoningOpen, text, i)
    ensures forall q: nat :: q < i < q + |ReasoningClose| ==> !OccursAt(ReasoningClose, text, q)
  {
    assert text[i + 0] == ReasoningOpen[0] == '<';
    forall q: nat | q < i < q + |ReasoningClose|
      ensures !OccursAt(ReasoningClose, text, q)
    {
      assert ReasoningClose[i - q] != '<';
    }
  }

  /** A `<reasoning>` with no `</reasoning>` anywhere after it is not a match: it and everything
      after it stay in place rather than being cut off to the end of the text. */
  lemma UnclosedReasoningKept(text: string, i: nat)
    requires OccursAt(ReasoningOpen, text, i)
    requires forall q :: i <= q ==> !OccursAt(ReasoningClose, text, q)
    ensures EndsWith(RemoveReasoning(text), text[i..])
  {
    NoCloserStraddlesOpener(text, i);
    UnclosedTailKept(text, ReasoningOpen, ReasoningClose, 0, i);
  }

  /** After stripping, that unclosed opener is still in the cleaned text. */
  lemma UnclosedReasoningSurvivesClean(text: string, i: nat)
    requires OccursAt(ReasoningOpen, text, i)
    requires forall q :: i <= q ==> !OccursAt(ReasoningClose, text, q)
    ensures Contains(CleanResponseText(text), ReasoningOpen)
  {
    UnclosedReasoningKept(text, i);
    var removed := RemoveReasoning(text);
    var p := |removed| - (|text| - i);
    assert OccursAt(ReasoningOpen, removed, p) by {
      forall k | 0 <= k < |ReasoningOpen|
        ensures removed[p + k] == ReasoningOpen[k]
      {
        assert removed[p + k] == text[i..][k];
      }
    }
    OpenerSurvivesTrim(removed, p);
  }

  /** Stripping keeps an opener: it starts with `<` and ends with `>`, neither of them space. */
  lemma OpenerSurvivesTrim(s: string, p: nat)
    requires OccursAt(ReasoningOpen, s, p)
    ensures Contains(Trim(s), ReasoningOpen)
  {
    assert ReasoningOpen[0] == '<' && ReasoningOpen[|ReasoningOpen| - 1] == '>';
    OccurrenceSurvivesTrim(ReasoningOpen, s, p);
  }

  /** A complete block is cut out: text before the first `<reasoning>` is kept, everything from it
      to the first `</reasoning>` after it is deleted, and the rest is processed the same way. */
  lemma ReasoningBlockRemoved(pre: string, inner: string, post: string)
    requires forall q: nat :: q < |pre| ==> !OccursAt(ReasoningOpen, pre + ReasoningOpen, q)
    requires forall q: nat :: q < |inner| ==> !OccursAt(ReasoningClose, inner + ReasoningClose, q)
    ensures RemoveReasoning(pre + ReasoningOpen + inner + ReasoningClose + post)
            == pre + RemoveReasoning(post)
  {
    BlockRemoved(pre, ReasoningOpen, inner, ReasoningClose, post);
  }

  /** `clean_response_text` on a text holding a complete block: the block is gone, the rest is
      cleaned of blocks in the same way, and the whole is stripped. */
  lemma ReasoningBlockCleaned(pre: string, inner: string, post: string)
    requires forall q: nat :: q < |pre| ==> !OccursAt(ReasoningOpen, pre + ReasoningOpen, q)
    requires forall q: nat :: q < |inner| ==> !OccursAt(ReasoningClose, inner + ReasoningClose, q)
    ensures CleanResponseText(pre + ReasoningOpen + inner + ReasoningClose + post)
            == Trim(pre + RemoveReasoning(post))
  {
    ReasoningBlockRemoved(pre, inner, post);
  }

  /** A text with no `<reasoning>`, or with no `</reasoning>` after its first one, holds no match
      and loses nothing. */
  lemma ReasoningKeptWithoutBlock(text: string)
    requires FindFrom(ReasoningOpen, text, 0).None?
             || FindFrom(ReasoningClose, text, FindFrom(ReasoningOpen, text, 0).value + |ReasoningOpen|).None?
    ensures RemoveReasoning(text) == text
  {
    KeepsTailWithoutBlock(text, ReasoningOpen, ReasoningClose, 0);
  }

  // ----- Picking the generated text out of the response body -----

  /** Concatenate `f` of each item in order; the first item whose `f` raises stops the loop. */
  function ConcatMap(xs: seq<Value>, f: Value -> Result<string>): (r: Result<string>)
    ensures r.Ok? <==> forall k :: 0 <= k < |xs| ==> f(xs[k]).Ok?
    ensures r.Err? ==> exists k :: 0 <= k < |xs| && f(xs[k]) == Err(r.error)
                                  && forall j :: 0 <= j < k ==> f(xs[j]).Ok?
    decreases |xs|
  {
    if |xs| == 0 then Ok("")
    else
      var head :- f(xs[0]);
      var tail :- ConcatMap(xs[1..], f);
      Ok(head + tail)
  }

  /** Two loop results in sequence: the first exception wins, otherwise the texts are joined. */
  function Then(x: Result<string>, y: Result<string>): Result<string> {
    match x
    case Err(e) => Err(e)
    case Ok(a) => (match y case Err(e) => Err(e) case Ok(b) => Ok(a + b))
  }

  /** The loop over a list splits at any point into the loop over each part. */
  lemma {:induction false} ConcatMapAppend(xs: seq<Value>, ys: seq<Value>, f: Value -> Result<string>)
    ensures ConcatMap(xs + ys, f) == Then(ConcatMap(xs, f), ConcatMap(ys, f))
    decreases |xs|
  {
    if |xs| == 0 {
      assert xs + ys == ys;
      match ConcatMap(ys, f)
      case Ok(b) => assert "" + b == b;
      case Err(_) =>
    } else {
      assert (xs + ys)[0] == xs[0];
      assert (xs + ys)[1..] == xs[1..] + ys;
      ConcatMapAppend(xs[1..], ys, f);
      match f(xs[0])
      case Err(_) =>
      case Ok(a) =>
        match ConcatMap(xs[1..], f)
        case Err(_) =>
        case Ok(b) =>
          match ConcatMap(ys, f)
          case Err(_) =>
          case Ok(c) => assert a + (b + c) == (a + b) + c;
    }
  }

  /** The loop over one item is that item's contribution. */
  lemma ConcatMapSingle(x: Value, f: Value -> Result<string>)
    ensures ConcatMap([x], f) == f(x)
  {
    assert [x][1..] == [];
    match f(x)
    case Ok(a) => assert a + "" == a;
    case Err(_) =>
  }

  /** A loop whose every step adds nothing or raises `e` raises `e` exactly when some step does,
      and otherwise adds nothing. */
  lemma {:induction false} ConcatMapQuiet(xs: seq<Value>, f: Value -> Result<string>, e: PyError)
    requires forall k :: 0 <= k < |xs| ==> f(xs[k]) == Ok("") || f(xs[k]) == Err(e)
    ensures ConcatMap(xs, f) == if exists k :: 0 <= k < |xs| && f(xs[k]) == Err(e) then Err(e) else Ok("")
    decreases |xs|
  {
    if |xs| > 0 {
      var tail := xs[1..];
      forall k | 0 <= k < |tail|
        ensures f(tail[k]) == Ok("") || f(tail[k]) == Err(e)
      {
        assert tail[k] == xs[k + 1];
      }
      ConcatMapQuiet(tail, f, e);
      if f(xs[0]) == Err(e) {
      } else if exists k :: 0 <= k < |xs| && f(xs[k]) == Err(e) {
        var k :| 0 <= k < |xs| && f(xs[k]) == Err(e);
        assert tail[k - 1] == xs[k];
      } else {
        forall k | 0 <= k < |tail|
          ensures f(tail[k]) != Err(e)
        {
          assert tail[k] == xs[k + 1];
        }
        assert "" + "" == "";
      }
    }
  }

  /** One `c` of an item's `content`: `if "text" in c: generated_text += c["text"]`. */
  function PartText(c: Value): (r: Result<string>)
    ensures c.Obj? && Lookup(c.fields, "text").None? ==> r == Ok("")
    ensures c.Obj? && Lookup(c.fields, "text").Some? ==>
              r == (match Lookup(c.fields, "text").value
                    case Str(t) => Ok(t)
                    case _ => Err(TypeError))
    ensures c.Null? || c.Bool? || c.Num? ==> r == Err(TypeError)
    ensures c.Str? ==> r == if Contains(c.s, "text") then Err(TypeError) else Ok("")
    ensures c.Arr? ==> r == if Str("text") in c.items then Err(TypeError) else Ok("")
  {
    var hasText :- In("text", c);
    if hasText then
      var t :- Index(c, "text");
      if t.Str? then Ok(t.s) else Err(TypeError)
    else Ok("")
  }

  /** One `item` of `results`: the loop over `item.get("content", [])`. */
  function ItemText(item: Value): (r: Result<string>)
    ensures !item.Obj? ==> r == Err(AttributeError)
    ensures item.Obj? && Lookup(item.fields, "content").None? ==> r == Ok("")
    ensures item.Obj? && Lookup(item.fields, "content").Some? && Lookup(item.fields, "content").value.Arr?
            ==> r == ConcatMap(Lookup(item.fields, "content").value.items, PartText)
    ensures item.Obj? && Lookup(item.fields, "content").Some? ==>
              var content := Lookup(item.fields, "content").value;
              && (content.Null? || content.Bool? || content.Num? ==> r == Err(TypeError))
              && (content.Str? ==> r == Ok(""))
              && (content.Obj? ==>
                    var keys := DictKeys(content.fields, {});
                    r == if exists k :: 0 <= k < |keys| && Contains(keys[k], "text") then Err(TypeError) else Ok(""))
  {
    var content :- Get(item, "content", Arr([]));
    var parts :- Iterate(content);
    if content.Arr? then ConcatMap(parts, PartText)
    else
      ConcatMapQuiet(parts, PartText, TypeError);
      ConcatMap(parts, PartText)
  }

  /** The `results` branch: the texts of every content part of every item, in order. */
  function ResultsText(results: Value): (r: Result<string>)
    ensures results.Arr? ==> r == ConcatMap(results.items, ItemText)
    ensures results.Null? || results.Bool? || results.Num? ==> r == Err(TypeError)
    ensures results.Str? || results.Obj? ==> r == if Truthy(results) then Err(AttributeError) else Ok("")
  {
    var items :- Iterate(results);
    ConcatMap(items, ItemText)
  }

  /** The `results` text of two runs of items is the text of the first run followed by that of the
      second; an exception in the first run wins. */
  lemma ResultsInOrder(xs: seq<Value>, ys: seq<Value>)
    ensures ResultsText(Arr(xs + ys)) == Then(ResultsText(Arr(xs)), ResultsText(Arr(ys)))
  {
    ConcatMapAppend(xs, ys, ItemText);
  }

  /** The choice's own `text` is consulted: it binds no `message`, or `"content" in message` is
      false. */
  predicate FallsBackToText(choice: Value)
    requires choice.Obj?
  {
    match Lookup(choice.fields, "message")
    case None => true
    case Some(m) => In("content", m) == Ok(false)
  }

  /** The text field of one OpenAI-style choice: `message.content` if the choice has a message
      with content, otherwise its `text`, otherwise "". A choice or message of the wrong type
      raises `TypeError`, at the `in` test or at the indexing that follows it. */
  function ChoiceText(choice: Value): (r: Result<Value>)
    ensures choice.Obj? && Lookup(choice.fields, "message").Some?
            && Lookup(choice.fields, "message").value.Obj?
            && Lookup(Lookup(choice.fields, "message").value.fields, "content").Some?
            ==> r == Ok(Lookup(Lookup(choice.fields, "message").value.fields, "content").value)
    ensures choice.Obj? && Lookup(choice.fields, "message").Some?
            && !Lookup(choice.fields, "message").value.Obj?
            && In("content", Lookup(choice.fields, "message").value) != Ok(false)
            ==> r == Err(TypeError)
    ensures choice.Obj? && FallsBackToText(choice) && Lookup(choice.fields, "text").Some?
            ==> r == Ok(Lookup(choice.fields, "text").value)
    ensures choice.Obj? && FallsBackToText(choice) && Lookup(choice.fields, "text").None?
            ==> r == Ok(Str(""))
    ensures choice.Null? || choice.Bool? || choice.Num? ==> r == Err(TypeError)
    ensures choice.Str? || choice.Arr? ==>
              r == if In("message", choice) == Ok(true) || In("text", choice) == Ok(true) then Err(TypeError) else Ok(Str(""))
  {
    var hasMessage :- In("message", choice);
    if hasMessage then
      var message :- Index(choice, "message");
      var hasContent :- In("content", message);
      if hasContent then Index(message, "content") else TextOfChoice(choice)
    else TextOfChoice(choice)
  }

  /** `elif "text" in choice: generated_text = choice["text"]`, else "". */
  function TextOfChoice(choice: Value): (r: Result<Value>)
    ensures choice.Obj? && Lookup(choice.fields, "text").Some? ==> r == Ok(Lookup(choice.fields, "text").value)
    ensures choice.Obj? && Lookup(choice.fields, "text").None? ==> r == Ok(Str(""))
    ensures choice.Null? || choice.Bool? || choice.Num? ==> r == Err(TypeError)
    ensures choice.Str? || choice.Arr? ==> r == if In("text", choice) == Ok(true) then Err(TypeError) else Ok(Str(""))
  {
    var hasText :- In("text", choice);
    if hasText then Index(choice, "text") else Ok(Str(""))
  }

  /** The branches after `choices`: `results`, then `response`, `content`, `text`, else "". */
  function TextWithoutChoices(body: Fields): (r: Result<Value>)
    ensures Lookup(body, "results").Some? ==>
              r == match ResultsText(Lookup(body, "results").value) case Ok(t) => Ok(Str(t)) case Err(e) => Err(e)
    ensures Lookup(body, "results").None? && Lookup(body, "response").Some?
            ==> r == Ok(Lookup(body, "response").value)
    ensures Lookup(body, "results").None? && Lookup(body, "response").None? && Lookup(body, "content").Some?
            ==> r == Ok(Lookup(body, "content").value)
    ensures Lookup(body, "results").None? && Lookup(body, "response").None? && Lookup(body, "content").None?
            && Lookup(body, "text").Some?
            ==> r == Ok(Lookup(body, "text").value)
    ensures Lookup(body, "results").None? && Lookup(body, "response").None? && Lookup(body, "content").None?
            && Lookup(body, "text").None?
            ==> r == Ok(Str(""))
  {
    match Lookup(body, "results")
    case Some(results) =>
      var t :- ResultsText(results);
      Ok(Str(t))
    case None =>
      match Lookup(body, "response")
      case Some(v) => Ok(v)
      case None =>
        match Lookup(body, "content")
        case Some(v) => Ok(v)
        case None =>
          match Lookup(body, "text")
          case Some(v) => Ok(v)
          case None => Ok(Str(""))
  }

  /** The value of `generated_text` once the dispatch over the response shapes is done. */
  function ExtractText(body: Fields): (r: Result<Value>)
    ensures Lookup(body, "choices").Some? && Lookup(body, "choices").value.Arr?
            && |Lookup(body, "choices").value.items| > 0
            ==> r == ChoiceText(Lookup(body, "choices").value.items[0])
    ensures && Lookup(body, "choices").None? && Lookup(body, "results").None?
            && Lookup(body, "response").None? && Lookup(body, "content").None?
            && Lookup(body, "text").None?
            ==> r == Ok(Str(""))
    ensures Lookup(body, "choices").Some? && NonEmpty(Lookup(body, "choices").value).Err?
            ==> r == Err(TypeError)
    ensures Lookup(body, "choices").Some? && Lookup(body, "choices").value.Obj?
            && |Lookup(body, "choices").value.fields| > 0
            ==> r == Err(KeyError)
    ensures Lookup(body, "choices").Some? && Lookup(body, "choices").value.Str?
            && |Lookup(body, "choices").value.s| > 0
            ==> r == ChoiceText(Str([Lookup(body, "choices").value.s[0]]))
  {
    match Lookup(body, "choices")
    case Some(choices) =>
      var nonEmpty :- NonEmpty(choices);
      if nonEmpty then
        var choice :- First(choices);
        ChoiceText(choice)
      else TextWithoutChoices(body)
    case None => TextWithoutChoices(body)
  }

  /** The keys the dispatch consults, highest priority first. */
  const Priority: seq<string> := ["choices", "results", "response", "content", "text"]

  /** The dispatch takes the branch of `key`: the body binds it, and for "choices" the bound value
      is not an empty one (a value without a length raises inside that branch). */
  predicate Takes(body: Fields, key: string) {
    Lookup(body, key).Some? && (key == "choices" ==> NonEmpty(Lookup(body, key).value) != Ok(false))
  }

  /** The first of `keys` whose branch is taken. */
  function FirstTaken(body: Fields, keys: seq<string>): (r: Option<nat>)
    ensures r.Some? ==> r.value < |keys| && Takes(body, keys[r.value])
    ensures r.Some? ==> forall j :: 0 <= j < r.value ==> !Takes(body, keys[j])
    ensures r.None? ==> forall j :: 0 <= j < |keys| ==> !Takes(body, keys[j])
  {
    if |keys| == 0 then None
    else if Takes(body, keys[0]) then Some(0)
    else match FirstTaken(body, keys[1..])
      case None => None
      case Some(j) => Some(j + 1)
  }

  /** Branch priority is choices > results > response > content > text: the extracted value is
      decided by the first key of `Priority` the body selects, and is "" when it selects none. */
  lemma DispatchFollowsPriority(body: Fields)
    ensures match FirstTaken(body, Priority)
            case None => ExtractText(body) == Ok(Str(""))
            case Some(k) =>
              var v := Lookup(body, Priority[k]).value;
              if Priority[k] == "choices" then ExtractText(body) == ExtractText([("choices", v)])
              else if Priority[k] == "results" then ExtractText(body) == (var t :- ResultsText(v); Ok(Str(t)))
              else ExtractText(body) == Ok(v)
  {
    var f := FirstTaken(body, Priority);
    assert Priority[0] == "choices" && Priority[1] == "results" && Priority[2] == "response";
    assert Priority[3] == "content" && Priority[4] == "text";
    if f.Some? && f.value == 0 {
      var v := Lookup(body, "choices").value;
      assert Lookup([("choices", v)], "choices") == Some(v);
    }
  }

  /** `send_message_to_bedrock` from the parsed body on: `Ok(t)` is the returned text, `Err(e)`
      the exception its `except` turns into an error string. */
  function SendMessageText(body: Fields): (r: Result<string>)
    ensures r.Ok? ==> IsTrimmed(r.value)
    ensures ExtractText(body).Ok? && ExtractText(body).value.Str?
            ==> r == Ok(CleanResponseText(ExtractText(body).value.s))
    ensures ExtractText(body).Ok? && !Truthy(ExtractText(body).value) ==> r == Ok("")
    ensures ExtractText(body).Err? ==> r == Err(ExtractText(body).error)
    ensures ExtractText(body).Ok? ==> r == CleanValue(ExtractText(body).value)
  {
    var generated :- ExtractText(body);
    CleanValue(generated)
  }

  /** `clean_response_text` applied to whatever value the dispatch produced: a falsy value (empty
      string, null, 0, an empty list) gives "", a non-string value makes `re.sub` raise. */
  function CleanValue(v: Value): (r: Result<string>)
    ensures !Truthy(v) ==> r == Ok("")
    ensures Truthy(v) && !v.Str? ==> r == Err(TypeError)
    ensures v.Str? ==> r == Ok(CleanResponseText(v.s))
    ensures r.Ok? ==> IsTrimmed(r.value)
  {
    if !Truthy(v) then Ok("")
    else if v.Str? then Ok(CleanResponseText(v.s))
    else Err(TypeError)
  }

  /** The string `send_message_to_bedrock` returns; `describe` stands for Python's `str(e)`. */
  function Reply(body: Fields, describe: PyError -> string): (r: string)
    ensures SendMessageText(body).Ok? ==> r == SendMessageText(body).value && IsTrimmed(r)
    ensures SendMessageText(body).Err? ==> |r| >= 7 && r[..7] == "Error: "
  {
    match SendMessageText(body)
    case Ok(t) => t
    case Err(e) => "Error: " + describe(e)
  }

  /** Every exception the dispatch raises reaches the caller as a reply starting with "Error: ". */
  lemma ExceptionBecomesError(body: Fields, describe: PyError -> string)
    requires ExtractText(body).Err?
    ensures var r := Reply(body, describe); |r| >= 7 && r[..7] == "Error: "
  {
  }
}

=== FILE: clean_script.dfy ===
/** The stand-alone script `bedrock_test_clean.py`: the same response-shape dispatch as the core,
    followed by a more aggressive cleanup that falls back to picking sentences, or to stripping
    markup, when removing the reasoning blocks leaves nothing. */
module CleanScript {
  import opened Text
  import opened Spans
  import opened Json
  import opened BedrockCore

  // ----- `re.findall(r'[A-Z][^<]*?[.!?](?:\s|$)', text)` -----

  predicate IsUpper(c: char) {
    'A' <= c <= 'Z'
  }

  predicate IsTerminator(c: char) {
    c == '.' || c == '!' || c == '?'
  }

  /** The pattern's tail `[.!?](?:\s|$)` matches at `t`: a terminator followed by whitespace or by
      the end of the text. */
  predicate EndsSentence(s: string, t: nat)
    requires t < |s|
  {
    IsTerminator(s[t]) && (t + 1 == |s| || IsSpace(s[t + 1]))
  }

  /** Where a match whose terminator is at `t` ends: the whitespace after it is part of the match. */
  function MatchEnd(s: string, t: nat): (e: nat)
    requires t < |s|
    ensures t < e <= |s| && e <= t + 2
  {
    if t + 1 == |s| then t + 1 else t + 2
  }

  /** No `<` in `s[j..t]`. */
  ghost predicate NoAngleBetween(s: string, j: nat, t: nat) {
    forall k :: j <= k < t && k < |s| ==> s[k] != '<'
  }

  /** The lazy `[^<]*?` followed by the tail, started at `j`: the first terminator that ends a
      sentence, unless a `<` comes first. */
  function SentenceStop(s: string, j: nat): (r: Option<nat>)
    requires j <= |s|
    ensures r.Some? ==> j <= r.value < |s| && EndsSentence(s, r.value)
    ensures r.Some? ==> NoAngleBetween(s, j, r.value)
    ensures r.Some? ==> forall k :: j <= k < r.value ==> !EndsSentence(s, k)
    ensures r.None? ==> forall t :: j <= t < |s| && EndsSentence(s, t) ==> !NoAngleBetween(s, j, t)
    decreases |s| - j
  {
    if j == |s| then None
    else if EndsSentence(s, j) then Some(j)
    else if s[j] == '<' then None
    else SentenceStop(s, j + 1)
  }

  /** What one match of the pattern looks like. */
  ghost predicate IsSentence(x: string) {
    && |x| >= 2
    && IsUpper(x[0])
    && NoAngle(x)
    && (IsTerminator(x[|x| - 1]) || (IsTerminator(x[|x| - 2]) && IsSpace(x[|x| - 1])))
  }

  /** A match starting at `i`, if there is one. */
  function SentenceAt(s: string, i: nat): (r: Option<nat>)
    requires i < |s|
    ensures r.Some? ==> i + 2 <= r.value <= |s| && IsSentence(s[i..r.value])
    ensures r.None? <==> !IsUpper(s[i]) || SentenceStop(s, i + 1).None?
    ensures r.Some? ==> r.value == MatchEnd(s, SentenceStop(s, i + 1).value)
  {
    if !IsUpper(s[i]) then None
    else match SentenceStop(s, i + 1)
      case None => None
      case Some(t) =>
        var e := MatchEnd(s, t);
        assert IsSentence(s[i..e]) by {
          var x := s[i..e];
          assert x[0] == s[i];
          forall k | 0 <= k < |x|
            ensures x[k] != '<'
          {
            assert x[k] == s[i + k];
          }
          assert x[|x| - 1] == s[e - 1] && x[|x| - 2] == s[e - 2];
        }
        Some(e)
  }

  /** `re.findall` from position `i`: try a match at each position; after a match, go on where it
      ended. */
  function Sentences(s: string, i: nat): (r: seq<string>)
    requires i <= |s|
    ensures forall k :: 0 <= k < |r| ==> IsSentence(r[k])
    decreases |s| - i
  {
    if i == |s| then []
    else match SentenceAt(s, i)
      case Some(e) => [s[i..e]] + Sentences(s, e)
      case None => Sentences(s, i + 1)
  }

  /** `findall` goes on at the first position from `i` that starts a match: that match comes first,
      and the search resumes where it ended. */
  lemma {:induction false} SentencesFrom(s: string, i: nat, p: nat, e: nat)
    requires i <= p < |s|
    requires forall q :: i <= q < p ==> SentenceAt(s, q).None?
    requires SentenceAt(s, p) == Some(e)
    ensures Sentences(s, i) == [s[p..e]] + Sentences(s, e)
    decreases p - i
  {
    if i < p {
      SentencesFrom(s, i + 1, p, e);
    }
  }

  /** The search finds nothing exactly when no position starts a match. */
  lemma {:induction false} NoSentencesIff(s: string, i: nat)
    requires i <= |s|
    ensures Sentences(s, i) == [] <==> forall p :: i <= p < |s| ==> SentenceAt(s, p).None?
    decreases |s| - i
  {
    if i < |s| && SentenceAt(s, i).None? {
      NoSentencesIff(s, i + 1);
    }
  }

  // ----- The reasoning-sentence filter -----

  /** `str.lower()` on one character, for the ASCII letters. The keywords below are ASCII, and no
      other character lowers to an ASCII letter that could complete one of them. */
  function LowerChar(c: char): char {
    if 'A' <= c <= 'Z' then (c as int + 32) as char else c
  }

  function Lower(s: string): (r: string)
    ensures |r| == |s| && forall k :: 0 <= k < |s| ==> r[k] == LowerChar(s[k])
  {
    seq(|s|, k requires 0 <= k < |s| => LowerChar(s[k]))
  }

  /** The phrases that mark a sentence as the model thinking aloud. */
  const ReasoningWords: seq<string> := ["we need", "let's", "so we should", "reasoning"]

  /** `any(word in s.lower() for word in [...])`. */
  predicate LooksLikeReasoning(x: string) {
    exists w :: w in ReasoningWords && Contains(Lower(x), w)
  }

  /** The four phrases, written out. */
  lemma LooksLikeReasoningIff(x: string)
    ensures LooksLikeReasoning(x) <==>
              Contains(Lower(x), "we need") || Contains(Lower(x), "let's")
              || Contains(Lower(x), "so we should") || Contains(Lower(x), "reasoning")
  {
    assert ReasoningWords[0] == "we need" && ReasoningWords[1] == "let's";
    assert ReasoningWords[2] == "so we should" && ReasoningWords[3] == "reasoning";
  }

  /** The list comprehension that keeps the sentences not looking like reasoning, in order. */
  function ContentSentences(xs: seq<string>): (r: seq<string>)
    ensures |r| <= |xs|
    ensures forall x :: x in r <==> x in xs && !LooksLikeReasoning(x)
  {
    if |xs| == 0 then []
    else (if LooksLikeReasoning(xs[0]) then [] else [xs[0]]) + ContentSentences(xs[1..])
  }

  /** The filter distributes over concatenation, so it keeps the original order. */
  lemma {:induction false} ContentSentencesAppend(xs: seq<string>, ys: seq<string>)
    ensures ContentSentences(xs + ys) == ContentSentences(xs) + ContentSentences(ys)
  {
    if |xs| > 0 {
      assert (xs + ys)[0] == xs[0];
      assert (xs + ys)[1..] == xs[1..] + ys;
      ContentSentencesAppend(xs[1..], ys);
    } else {
      assert xs + ys == ys;
    }
  }

  /** `' '.join(xs)`. */
  function JoinWithSpace(xs: seq<string>): (r: string)
    ensures |xs| == 0 ==> r == ""
    ensures |xs| == 1 ==> r == xs[0]
    ensures |xs| == 2 ==> r == xs[0] + " " + xs[1]
  {
    if |xs| == 0 then ""
    else if |xs| == 1 then xs[0]
    else xs[0] + " " + JoinWithSpace(xs[1..])
  }

  /** `' '.join(xs[:2]).strip()`. */
  function FirstTwo(xs: seq<string>): (r: string)
    ensures |xs| == 0 ==> r == ""
    ensures |xs| == 1 ==> r == Trim(xs[0])
    ensures |xs| >= 2 ==> r == Trim(xs[0] + " " + xs[1])
  {
    var two := if |xs| <= 2 then xs else xs[..2];
    assert |two| == 2 ==> two[1..] == [xs[1]];
    Trim(JoinWithSpace(two))
  }

  /** The sentence fallback: the first two content sentences, or the first two sentences when
      every one of them looks like reasoning. */
  function SentencePick(sentences: seq<string>): (r: string)
    ensures IsTrimmed(r)
    ensures var c := ContentSentences(sentences);
            && (|c| == 1 ==> r == Trim(c[0]))
            && (|c| >= 2 ==> r == Trim(c[0] + " " + c[1]))
  {
    var content := ContentSentences(sentences);
    if |content| > 0 then FirstTwo(content) else FirstTwo(sentences)
  }

  /** When every sentence looks like reasoning, the first two sentences are used anyway. */
  lemma SentencePickFallsBack(sentences: seq<string>)
    requires forall k :: 0 <= k < |sentences| ==> LooksLikeReasoning(sentences[k])
    ensures |sentences| == 1 ==> SentencePick(sentences) == Trim(sentences[0])
    ensures |sentences| >= 2 ==> SentencePick(sentences) == Trim(sentences[0] + " " + sentences[1])
  {
    AllReasoningFiltered(sentences);
  }

  lemma {:induction false} AllReasoningFiltered(xs: seq<string>)
    requires forall k :: 0 <= k < |xs| ==> LooksLikeReasoning(xs[k])
    ensures ContentSentences(xs) == []
  {
    if |xs| > 0 {
      AllReasoningFiltered(xs[1..]);
    }
  }

  // ----- What the picked text looks like -----

  ghost predicate NoAngle(x: string) {
    NoAngleBetween(x, 0, |x|)
  }

  /** Stripping keeps the first character when it is not whitespace, and keeps out `<`. */
  lemma TrimSentenceLike(x: string)
    requires |x| > 0 && IsUpper(x[0]) && NoAngle(x)
    ensures |Trim(x)| > 0 && IsUpper(Trim(x)[0]) && NoAngle(Trim(x))
  {
    TrimKeepsFirst(x);
    var a := SkipSpaces(x, 0);
    var r := Trim(x);
    assert StripsTo(x, a, r);
    forall k | 0 <= k < |r|
      ensures r[k] != '<'
    {
      assert r[k] == x[a + k];
    }
  }

  /** The fallback yields text that starts like a sentence and holds no `<`. */
  lemma SentencePickShape(sentences: seq<string>)
    requires |sentences| > 0
    requires forall k :: 0 <= k < |sentences| ==> IsSentence(sentences[k])
    ensures var r := SentencePick(sentences); |r| > 0 && IsUpper(r[0]) && NoAngle(r)
  {
    var c := ContentSentences(sentences);
    var xs := if |c| > 0 then c else sentences;
    assert forall k :: 0 <= k < |xs| ==> IsSentence(xs[k]) by {
      forall k | 0 <= k < |xs|
        ensures IsSentence(xs[k])
      {
        assert xs[k] in sentences;
      }
    }
    assert FirstTwo(xs) == SentencePick(sentences);
    if |xs| == 1 {
      TrimSentenceLike(xs[0]);
    } else {
      JoinSentenceLike(xs[0], xs[1]);
      TrimSentenceLike(xs[0] + " " + xs[1]);
    }
  }

  lemma JoinSentenceLike(a: string, b: string)
    requires |a| > 0 && IsUpper(a[0]) && NoAngle(a) && NoAngle(b)
    ensures var j := a + " " + b; |j| > 0 && IsUpper(j[0]) && NoAngle(j)
  {
    var j := a + " " + b;
    assert j[0] == a[0];
    forall k | 0 <= k < |j|
      ensures j[k] != '<'
    {
      if k < |a| {
        assert j[k] == a[k];
      } else if k > |a| {
        assert j[k] == b[k - |a| - 1];
      }
    }
  }

  // ----- The picked text holds no reasoning phrase when a content sentence exists -----

  /** What the keyword argument needs of a phrase: it does not start with whitespace and holds no
      sentence terminator. */
  ghost predicate PhraseShape(w: string) {
    |w| > 0 && !IsSpace(w[0]) && forall k :: 0 <= k < |w| ==> !IsTerminator(w[k])
  }

  lemma ReasoningWordsShape()
    ensures forall k :: 0 <= k < |ReasoningWords| ==> PhraseShape(ReasoningWords[k])
  {
    assert PhraseShape("we need");
    assert PhraseShape("let's");
    assert PhraseShape("so we should");
    assert PhraseShape("reasoning");
  }

  /** A phrase lying inside `a` of `a + " " + b` lies in `a`. */
  lemma PhraseInLeft(a: string, b: string, w: string, q: nat)
    requires q + |w| <= |a|
    ensures OccursAt(w, Lower(a + " " + b), q) <==> OccursAt(w, Lower(a), q)
  {
    var j := a + " " + b;
    forall k | 0 <= k < |w|
      ensures (Lower(j)[q + k] == w[k]) == (Lower(a)[q + k] == w[k])
    {
      assert j[q + k] == a[q + k];
    }
  }

  /** A phrase lying after the joining space lies in `b`. */
  lemma PhraseInRight(a: string, b: string, w: string, q: nat)
    requires q >= |a| + 1
    ensures OccursAt(w, Lower(a + " " + b), q) <==> OccursAt(w, Lower(b), q - |a| - 1)
  {
    var j := a + " " + b;
    if q + |w| <= |j| {
      forall k | 0 <= k < |w|
        ensures (Lower(j)[q + k] == w[k]) == (Lower(b)[q - |a| - 1 + k] == w[k])
      {
        assert j[q + k] == b[q - |a| - 1 + k];
      }
    }
  }

  /** No phrase crosses the joining space: it would have to contain the terminator that ends `a`,
      or start on the whitespace after it. */
  lemma PhraseNotAcross(a: string, b: string, w: string, q: nat)
    requires IsSentence(a) && PhraseShape(w)
    requires q <= |a| < q + |w|
    ensures !OccursAt(w, Lower(a + " " + b), q)
  {
    var j := a + " " + b;
    var n := |a|;
    var t := if IsTerminator(a[n - 1]) then n - 1 else n - 2;
    if q + |w| <= |j| {
      if q <= t {
        assert j[t] == a[t];
        assert Lower(j)[q + (t - q)] != w[t - q];
      } else {
        assert IsSpace(j[q]);
        assert Lower(j)[q + 0] != w[0];
      }
    }
  }

  /** Joining two content sentences with a space does not create a reasoning phrase. */
  lemma JoinKeepsContent(a: string, b: string)
    requires IsSentence(a) && IsSentence(b)
    requires !LooksLikeReasoning(a) && !LooksLikeReasoning(b)
    ensures !LooksLikeReasoning(a + " " + b)
  {
    var j := a + " " + b;
    ReasoningWordsShape();
    forall w | w in ReasoningWords
      ensures !Contains(Lower(j), w)
    {
      assert !Contains(Lower(a), w) && !Contains(Lower(b), w);
      forall q: nat
        ensures !OccursAt(w, Lower(j), q)
      {
        if q + |w| <= |a| {
          PhraseInLeft(a, b, w, q);
        } else if q >= |a| + 1 {
          PhraseInRight(a, b, w, q);
        } else {
          PhraseNotAcross(a, b, w, q);
        }
      }
    }
  }

  /** Stripping cannot create a reasoning phrase: the result is a piece of the input. */
  lemma TrimKeepsContent(x: string)
    requires !LooksLikeReasoning(x)
    ensures !LooksLikeReasoning(Trim(x))
  {
    var a := SkipSpaces(x, 0);
    var r := Trim(x);
    assert Lower(r) == Lower(x)[a..a + |r|] by {
      assert StripsTo(x, a, r);
      LowerSlice(x, a, a + |r|);
    }
    forall w | w in ReasoningWords
      ensures !Contains(Lower(r), w)
    {
      SliceLacks(Lower(x), a, a + |r|, w, Lower(r));
    }
  }

  /** Lower-casing works character by character, so it commutes with slicing. */
  lemma LowerSlice(x: string, a: nat, b: nat)
    requires a <= b <= |x|
    ensures Lower(x[a..b]) == Lower(x)[a..b]
  {
  }

  /** When some sentence survives the filter, the fallback text holds none of the reasoning
      phrases. */
  lemma SentencePickFiltersReasoning(sentences: seq<string>)
    requires forall k :: 0 <= k < |sentences| ==> IsSentence(sentences[k])
    requires exists k :: 0 <= k < |sentences| && !LooksLikeReasoning(sentences[k])
    ensures !LooksLikeReasoning(SentencePick(sentences))
  {
    var c := ContentSentences(sentences);
    var k :| 0 <= k < |sentences| && !LooksLikeReasoning(sentences[k]);
    assert sentences[k] in c;
    assert c[0] in c;
    if |c| == 1 {
      TrimKeepsContent(c[0]);
    } else {
      assert c[1] in c;
      JoinKeepsContent(c[0], c[1]);
      TrimKeepsContent(c[0] + " " + c[1]);
    }
  }

  // ----- Last resort: `re.sub(r'<[^>]*>', '', text)` -----

  function StripTags(t: string): (r: string)
    ensures |r| <= |t|
  {
    Scan(t, "<", ">", 0)
  }

  /** No `<` is followed, anywhere later, by a `>`: nothing that the tag pattern could match. */
  ghost predicate NoTag(x: string) {
    forall i, j :: 0 <= i < j < |x| && x[i] == '<' ==> x[j] != '>'
  }

  /** A `<` survives the scan only when no `>` follows it, so the result holds no tag. */
  lemma {:induction false} StripTagsLeavesNoTag(t: string, i: nat)
    requires i <= |t|
    ensures NoTag(Scan(t, "<", ">", i))
    decreases |t| - i
  {
    if i < |t| {
      var r := Scan(t, "<", ">", i);
      if OccursAt("<", t, i) && FindFrom(">", t, i + 1).Some? {
        var c := FindFrom(">", t, i + 1).value;
        ScanSkipStep(t, "<", ">", i, c);
        StripTagsLeavesNoTag(t, c + 1);
      } else {
        ScanKeepStep(t, "<", ">", i);
        var rest := Scan(t, "<", ">", i + 1);
        assert r == [t[i]] + rest;
        StripTagsLeavesNoTag(t, i + 1);
        if t[i] == '<' {
          UnclosedAngleKeepsNoCloser(t, i);
        }
        NoTagCons(t[i], rest);
      }
    }
  }

  /** A `<` that is kept has no `>` after it in the input, hence none in the rest of the output. */
  lemma UnclosedAngleKeepsNoCloser(t: string, i: nat)
    requires i < |t| && t[i] == '<'
    requires !OccursAt("<", t, i) || FindFrom(">", t, i + 1).None?
    ensures var r := Scan(t, "<", ">", i + 1); forall k :: 0 <= k < |r| ==> r[k] != '>'
  {
    assert OccursAt("<", t, i);
    forall p | i + 1 <= p < |t|
      ensures t[p] != '>'
    {
      assert !OccursAt(">", t, p);
    }
    ScanAvoids(t, "<", ">", i + 1, '>');
  }

  /** Putting a character in front keeps the property, unless it is a `<` with a `>` after it. */
  lemma NoTagCons(c: char, rest: string)
    requires NoTag(rest)
    requires c == '<' ==> forall k :: 0 <= k < |rest| ==> rest[k] != '>'
    ensures NoTag([c] + rest)
  {
    var r := [c] + rest;
    forall a, b | 0 <= a < b < |r| && r[a] == '<'
      ensures r[b] != '>'
    {
      assert r[b] == rest[b - 1];
      if a > 0 {
        assert r[a] == rest[a - 1];
      }
    }
  }

  /** Stripping keeps the property: the result is a piece of the input. */
  lemma TrimKeepsNoTag(x: string)
    requires NoTag(x)
    ensures NoTag(Trim(x))
  {
    var a := SkipSpaces(x, 0);
    var r := Trim(x);
    assert StripsTo(x, a, r);
    forall i, j | 0 <= i < j < |r| && r[i] == '<'
      ensures r[j] != '>'
    {
      assert r[i] == x[a + i] && r[j] == x[a + j];
    }
  }

  /** Text without `<` passes the tag stripping unchanged. */
  lemma StripTagsWithoutAngle(t: string)
    requires NoAngle(t)
    ensures StripTags(t) == t
  {
    forall k | 0 <= k
      ensures !OccursAt("<", t, k)
    {
      if k < |t| {
        assert t[k + 0] != "<"[0];
      }
    }
    NoOpenNoChange(t, "<", ">", 0);
  }

  /** A complete tag is deleted: the text before the first `<` is kept, everything from it to the
      first `>` after it goes, and the rest is stripped the same way. */
  lemma TagRemoved(pre: string, inner: string, post: string)
    requires NoAngle(pre)
    requires forall k :: 0 <= k < |inner| ==> inner[k] != '>'
    ensures StripTags(pre + "<" + inner + ">" + post) == pre + StripTags(post)
  {
    forall q: nat | q < |pre|
      ensures !OccursAt("<", pre + "<", q)
    {
      assert (pre + "<")[q + 0] == pre[q] != "<"[0];
    }
    forall q: nat | q < |inner|
      ensures !OccursAt(">", inner + ">", q)
    {
      assert (inner + ">")[q + 0] == inner[q] != ">"[0];
    }
    BlockRemoved(pre, "<", inner, ">", post);
  }

  /** A text with no `<`, or with no `>` after its first `<`, holds no tag and is kept whole. */
  lemma UnclosedTagKept(t: string)
    requires FindFrom("<", t, 0).None? || FindFrom(">", t, FindFrom("<", t, 0).value + 1).None?
    ensures StripTags(t) == t
  {
    KeepsTailWithoutBlock(t, "<", ">", 0);
  }

  // ----- The script's cleanup of the generated text -----

  /** The cleanup applied to a non-empty string (`if generated_text:` holds). */
  function CleanText(t: string): (r: string)
    ensures IsTrimmed(r)
    ensures |CleanResponseText(t)| > 0 ==> r == CleanResponseText(t)
  {
    var cleaned := Trim(RemoveReasoning(t));
    if |cleaned| > 0 then cleaned
    else
      var sentences := Sentences(t, 0);
      if |sentences| > 0 then SentencePick(sentences)
      else Trim(StripTags(t))
  }

  /** The tier the cleanup ends in, and what each tier guarantees. */
  lemma CleanTextTiers(t: string)
    requires |t| > 0
    ensures |CleanResponseText(t)| == 0 && |Sentences(t, 0)| > 0 ==>
              CleanText(t) == SentencePick(Sentences(t, 0))
              && |CleanText(t)| > 0 && IsUpper(CleanText(t)[0]) && NoAngle(CleanText(t))
    ensures |CleanResponseText(t)| == 0 && |Sentences(t, 0)| == 0 ==>
              CleanText(t) == Trim(StripTags(t)) && NoTag(CleanText(t))
  {
    var sentences := Sentences(t, 0);
    if |CleanResponseText(t)| == 0 {
      if |sentences| > 0 {
        SentencePickShape(sentences);
      } else {
        StripTagsLeavesNoTag(t, 0);
        TrimKeepsNoTag(StripTags(t));
      }
    }
  }

  /** The script's handling of `generated_text`: a falsy value is left alone and reported as "No
      text generated" (here ""); a non-empty string is cleaned; any other truthy value makes the
      debug `len(...)`, the slice or `re.sub` raise. */
  function ScriptClean(v: Value): (r: Result<string>)
    ensures !Truthy(v) ==> r == Ok("")
    ensures Truthy(v) && !v.Str? ==> r == Err(TypeError)
    ensures v.Str? && |CleanResponseText(v.s)| > 0 ==> r == Ok(CleanResponseText(v.s))
    ensures v.Str? && |v.s| > 0 ==> r == Ok(CleanText(v.s))
    ensures r.Ok? ==> IsTrimmed(r.value)
  {
    if !Truthy(v) then Ok("")
    else if v.Str? then Ok(CleanText(v.s))
    else Err(TypeError)
  }

  /** What the script prints under "=== GPT-OSS-20B Output ===" for a parsed response body. */
  function ScriptOutput(body: Fields): (r: Result<string>)
    ensures r.Ok? ==> |r.value| > 0
    ensures ExtractText(body).Ok? && !Truthy(ExtractText(body).value) ==> r == Ok("No text generated")
    ensures ExtractText(body).Err? ==> r == Err(ExtractText(body).error)
    ensures ExtractText(body).Ok? && ScriptClean(ExtractText(body).value).Err?
            ==> r == Err(ScriptClean(ExtractText(body).value).error)
    ensures ExtractText(body).Ok? && ScriptClean(ExtractText(body).value).Ok?
            ==> var t := ScriptClean(ExtractText(body).value).value;
                r == Ok(if |t| > 0 then t else "No text generated")
  {
    var generated :- ExtractText(body);
    var text :- ScriptClean(generated);
    Ok(if |text| > 0 then text else "No text generated")
  }

  /** Wherever the core returns text, the script prints the same text. */
  lemma ScriptAgreesWithCore(body: Fields)
    requires SendMessageText(body).Ok? && |SendMessageText(body).value| > 0
    ensures ScriptOutput(body) == Ok(SendMessageText(body).value)
  {
  }
}

=== FILE: json.dfy ===
/** A parsed JSON value as `json.loads` hands it to Python, and the few Python operations the
    response handling applies to it (`in`, `[key]`, `len(..) > 0`, `[0]`, iteration, `.get`,
    truthiness), each with the exception Python raises when the value has the wrong type. */
module Json {
  import opened Text

  /** The exception classes the operations below can raise. */
  datatype PyError = TypeError | KeyError | IndexError | AttributeError

  /** A computation that either yields a value or raises. */
  datatype Result<+T> = Ok(value: T) | Err(error: PyError) {
    predicate IsFailure() {
      Err?
    }

    function PropagateFailure<U>(): Result<U>
      requires Err?
    {
      Err(error)
    }

    function Extract(): T
      requires Ok?
    {
      value
    }
  }

  /** Objects are kept as the list of members in document order; a key may repeat, and then the
      last member wins, as it does in the dict `json.loads` builds. */
  datatype Value =
    | Null
    | Bool(b: bool)
    | Num(n: real)
    | Str(s: string)
    | Arr(items: seq<Value>)
    | Obj(fields: seq<(string, Value)>)

  type Fields = seq<(string, Value)>

  /** The value bound to `key`, taking the last binding. */
  function Lookup(f: Fields, key: string): (r: Option<Value>)
    ensures r.Some? <==> exists i :: 0 <= i < |f| && f[i].0 == key
    ensures r.Some? ==> exists i :: 0 <= i < |f| && f[i] == (key, r.value)
                                  && forall j :: i < j < |f| ==> f[j].0 != key
  {
    if |f| == 0 then None
    else if f[|f| - 1].0 == key then Some(f[|f| - 1].1)
    else Lookup(f[..|f| - 1], key)
  }

  /** The keys of the dict built from `f`, in first-insertion order, without repeats. */
  function DictKeys(f: Fields, seen: set<string>): (r: seq<string>)
    ensures forall k :: 0 <= k < |r| ==> r[k] !in seen
    ensures forall a, b :: 0 <= a < b < |r| ==> r[a] != r[b]
    decreases |f|
  {
    if |f| == 0 then []
    else if f[0].0 in seen then DictKeys(f[1..], seen)
    else [f[0].0] + DictKeys(f[1..], seen + {f[0].0})
  }

  /** Every listed key is a key of `f`. */
  lemma {:induction false} DictKeysSound(f: Fields, seen: set<string>, k: nat)
    requires k < |DictKeys(f, seen)|
    ensures Lookup(f, DictKeys(f, seen)[k]).Some?
    decreases |f|
  {
    var seen' := if f[0].0 in seen then seen else seen + {f[0].0};
    var rest := DictKeys(f[1..], seen');
    var shift := if f[0].0 in seen then 0 else 1;
    assert DictKeys(f, seen) == (if f[0].0 in seen then rest else [f[0].0] + rest);
    if shift == 1 && k == 0 {
      assert f[0].0 == DictKeys(f, seen)[k];
    } else {
      DictKeysSound(f[1..], seen', k - shift);
      var i :| 0 <= i < |f[1..]| && f[1..][i].0 == rest[k - shift];
      assert f[i + 1].0 == DictKeys(f, seen)[k];
    }
  }

  /** Every key of `f` that has not been seen is listed. */
  lemma {:induction false} DictKeysComplete(f: Fields, seen: set<string>, i: nat)
    requires i < |f| && f[i].0 !in seen
    ensures f[i].0 in DictKeys(f, seen)
    decreases |f|
  {
    var seen' := if f[0].0 in seen then seen else seen + {f[0].0};
    var rest := DictKeys(f[1..], seen');
    assert DictKeys(f, seen) == (if f[0].0 in seen then rest else [f[0].0] + rest);
    if i > 0 && f[i].0 !in seen' {
      assert f[1..][i - 1] == f[i];
      DictKeysComplete(f[1..], seen', i - 1);
    }
  }

  /** Insertion order: of two listed keys, the earlier one has a member before every member of the
      later one. */
  lemma {:induction false} DictKeysInOrder(f: Fields, seen: set<string>, a: nat, b: nat, j: nat)
    requires a < b < |DictKeys(f, seen)| && j < |f| && f[j].0 == DictKeys(f, seen)[b]
    ensures exists i :: 0 <= i < j && f[i].0 == DictKeys(f, seen)[a]
    decreases |f|
  {
    var r, g := DictKeys(f, seen), f[1..];
    var seen' := if f[0].0 in seen then seen else seen + {f[0].0};
    var rest := DictKeys(g, seen');
    var shift := if f[0].0 in seen then 0 else 1;
    assert r == (if f[0].0 in seen then rest else [f[0].0] + rest);
    assert r[b] == rest[b - shift];
    if j == 0 {
      assert false;
    } else if shift == 1 && a == 0 {
      assert f[0].0 == r[a];
    } else {
      assert r[a] == rest[a - shift];
      assert g[j - 1].0 == rest[b - shift];
      DictKeysInOrder(g, seen', a - shift, b - shift, j - 1);
      var i :| 0 <= i < j - 1 && g[i].0 == rest[a - shift];
      assert f[i + 1].0 == r[a];
    }
  }

  /** Python's `bool(v)`: exactly null, false, zero and the empty string, list and dict are falsy. */
  function Truthy(v: Value): (b: bool)
    ensures !b <==> v == Null || v == Bool(false) || v == Num(0.0) || v == Str("") || v == Arr([]) || v == Obj([])
  {
    match v
    case Null => false
    case Bool(x) => x
    case Num(n) => n != 0.0
    case Str(s) => |s| > 0
    case Arr(a) => |a| > 0
    case Obj(f) => |f| > 0
  }

  /** Python's `key in v` for a string `key`. */
  function In(key: string, v: Value): (r: Result<bool>)
    ensures v.Obj? ==> r == Ok(Lookup(v.fields, key).Some?)
    ensures v.Null? || v.Bool? || v.Num? ==> r == Err(TypeError)
  {
    match v
    case Obj(f) => Ok(Lookup(f, key).Some?)
    case Arr(a) => Ok(Str(key) in a)
    case Str(s) => Ok(Contains(s, key))
    case _ => Err(TypeError)
  }

  /** Python's `v[key]` for a string `key`. */
  function Index(v: Value, key: string): (r: Result<Value>)
    ensures r.Ok? <==> v.Obj? && Lookup(v.fields, key).Some?
    ensures r.Ok? ==> r.value == Lookup(v.fields, key).value
    ensures r.Err? && v.Obj? ==> r.error == KeyError
    ensures !v.Obj? ==> r == Err(TypeError)
  {
    match v
    case Obj(f) =>
      (match Lookup(f, key)
       case Some(x) => Ok(x)
       case None => Err(KeyError))
    case _ => Err(TypeError)
  }

  /** Python's `len(v) > 0`. */
  function NonEmpty(v: Value): (r: Result<bool>)
    ensures v.Str? || v.Arr? || v.Obj? <==> r.Ok?
    ensures r.Ok? ==> (r.value <==> Truthy(v))
    ensures v.Null? || v.Bool? || v.Num? ==> r == Err(TypeError)
  {
    match v
    case Str(s) => Ok(|s| > 0)
    case Arr(a) => Ok(|a| > 0)
    case Obj(f) => Ok(|f| > 0)
    case _ => Err(TypeError)
  }

  /** Python's `v[0]`: a list's first item, a string's first character; a dict has no key `0`
      since JSON keys are strings. */
  function First(v: Value): (r: Result<Value>)
    ensures v.Arr? && |v.items| > 0 ==> r == Ok(v.items[0])
    ensures v.Str? && |v.s| > 0 ==> r == Ok(Str([v.s[0]]))
    ensures r.Ok? ==> (v.Arr? && |v.items| > 0) || (v.Str? && |v.s| > 0)
    ensures (v.Arr? && |v.items| == 0) || (v.Str? && |v.s| == 0) ==> r == Err(IndexError)
    ensures v.Obj? ==> r == Err(KeyError)
    ensures v.Null? || v.Bool? || v.Num? ==> r == Err(TypeError)
  {
    match v
    case Arr(a) => if |a| > 0 then Ok(a[0]) else Err(IndexError)
    case Str(s) => if |s| > 0 then Ok(Str([s[0]])) else Err(IndexError)
    case Obj(_) => Err(KeyError)
    case _ => Err(TypeError)
  }

  /** The items `for x in v` visits: a list's items, a string's characters, a dict's keys. */
  function Iterate(v: Value): (r: Result<seq<Value>>)
    ensures v.Arr? ==> r == Ok(v.items)
    ensures r.Ok? <==> v.Arr? || v.Str? || v.Obj?
    ensures v.Null? || v.Bool? || v.Num? ==> r == Err(TypeError)
    ensures v.Str? ==> r.Ok? && |r.value| == |v.s| && forall k :: 0 <= k < |v.s| ==> r.value[k] == Str([v.s[k]])
    ensures v.Obj? ==> var keys := DictKeys(v.fields, {});
                       r.Ok? && |r.value| == |keys| && forall k :: 0 <= k < |keys| ==> r.value[k] == Str(keys[k])
  {
    match v
    case Arr(a) => Ok(a)
    case Str(s) => Ok(seq(|s|, k requires 0 <= k < |s| => Str([s[k]])))
    case Obj(f) =>
      var keys := DictKeys(f, {});
      Ok(seq(|keys|, k requires 0 <= k < |keys| => Str(keys[k])))
    case _ => Err(TypeError)
  }

  /** Python's `v.get(key, default)`, which only dicts have. */
  function Get(v: Value, key: string, default: Value): (r: Result<Value>)
    ensures r.Ok? <==> v.Obj?
    ensures v.Obj? && Lookup(v.fields, key).None? ==> r == Ok(default)
    ensures v.Obj? && Lookup(v.fields, key).Some? ==> r == Ok(Lookup(v.fields, key).value)
    ensures !v.Obj? ==> r == Err(AttributeError)
  {
    match v
    case Obj(f) =>
      (match Lookup(f, key)
       case Some(x) => Ok(x)
       case None => Ok(default))
    case _ => Err(AttributeError)
  }
}

=== FILE: spans.dfy ===
/** Left-to-right deletion of delimited spans: what Python's `re.sub(open + '.*?' + close, '', s,
    flags=re.DOTALL)` computes when `open` and `close` are literal text. At each position the scan
    tries a match; a match runs from an `open` to the first `close` that begins at or after the end
    of that `open`, is deleted, and the scan resumes after it. An `open` with no `close` after it is
    no match, so it stays as ordinary text and the scan moves on one character.

    The tag pattern `<[^>]*>` is the same scan with `open == "<"` and `close == ">"`: the greedy
    run of non-`>` characters can only stop at the first `>` after the `<`. */
module Spans {
  import opened Text

  function Scan(s: string, open: string, close: string, i: nat): (r: string)
    requires |open| > 0 && i <= |s|
    ensures |r| <= |s| - i
    decreases |s| - i
  {
    if i == |s| then []
    else if OccursAt(open, s, i) then
      match FindFrom(close, s, i + |open|)
      case Some(c) => Scan(s, open, close, c + |close|)
      case None => [s[i]] + Scan(s, open, close, i + 1)
    else [s[i]] + Scan(s, open, close, i + 1)
  }

  /** One step of the scan where a match starts: the matched span is skipped. */
  lemma ScanSkipStep(s: string, open: string, close: string, i: nat, c: nat)
    requires |open| > 0 && i <= |s| && OccursAt(open, s, i)
    requires FindFrom(close, s, i + |open|) == Some(c)
    ensures Scan(s, open, close, i) == Scan(s, open, close, c + |close|)
  {
  }

  /** One step of the scan where no match starts: the character is kept. */
  lemma ScanKeepStep(s: string, open: string, close: string, i: nat)
    requires |open| > 0 && i < |s|
    requires !OccursAt(open, s, i) || FindFrom(close, s, i + |open|).None?
    ensures Scan(s, open, close, i) == [s[i]] + Scan(s, open, close, i + 1)
  {
  }

  /** When no `open` at or after `i` has a `close` after it, the scan copies the rest unchanged. */
  lemma {:induction false} ScanKeepsUnmatched(s: string, open: string, close: string, i: nat)
    requires |open| > 0 && i <= |s|
    requires forall k :: i <= k && OccursAt(open, s, k) ==> FindFrom(close, s, k + |open|).None?
    ensures Scan(s, open, close, i) == s[i..]
    decreases |s| - i
  {
    if i < |s| {
      ScanKeepsUnmatched(s, open, close, i + 1);
      assert s[i..] == [s[i]] + s[i + 1..];
    }
  }

  /** Text before the next `open` is copied through. */
  lemma {:induction false} ScanCopiesUpToOpen(s: string, open: string, close: string, i: nat, o: nat)
    requires |open| > 0 && i <= o <= |s|
    requires forall k :: i <= k < o ==> !OccursAt(open, s, k)
    ensures Scan(s, open, close, i) == s[i..o] + Scan(s, open, close, o)
    decreases o - i
  {
    if i < o {
      assert !OccursAt(open, s, i);
      calc {
        Scan(s, open, close, i);
        [s[i]] + Scan(s, open, close, i + 1);
        { ScanCopiesUpToOpen(s, open, close, i + 1, o); }
        [s[i]] + (s[i + 1..o] + Scan(s, open, close, o));
        ([s[i]] + s[i + 1..o]) + Scan(s, open, close, o);
        { assert [s[i]] + s[i + 1..o] == s[i..o]; }
        s[i..o] + Scan(s, open, close, o);
      }
    }
  }

  /** Block view of the scan, first half: with `o` the earliest `open` at or after `i` and `c` the
      earliest `close` at or after the end of that `open`, the text before `o` is kept, the block
      from `o` to the end of that `close` is deleted, and the scan resumes after it. */
  lemma DeletesFirstBlock(s: string, open: string, close: string, i: nat, o: nat, c: nat)
    requires |open| > 0 && i <= |s|
    requires FindFrom(open, s, i) == Some(o)
    requires FindFrom(close, s, o + |open|) == Some(c)
    ensures Scan(s, open, close, i) == s[i..o] + Scan(s, open, close, c + |close|)
  {
    ScanCopiesUpToOpen(s, open, close, i, o);
    ScanSkipStep(s, open, close, o, c);
  }

  /** Block view of the scan, second half: once there is no further `open`, or no `close` after
      the earliest remaining `open`, the rest of the text is kept as it is. */
  lemma KeepsTailWithoutBlock(s: string, open: string, close: string, i: nat)
    requires |open| > 0 && i <= |s|
    requires FindFrom(open, s, i).None? || FindFrom(close, s, FindFrom(open, s, i).value + |open|).None?
    ensures Scan(s, open, close, i) == s[i..]
  {
    forall k | i <= k && OccursAt(open, s, k)
      ensures FindFrom(close, s, k + |open|).None?
    {
    }
    ScanKeepsUnmatched(s, open, close, i);
  }

  /** The scan only copies characters of `s` from `i` on: a character absent there is absent from
      the result. */
  lemma {:induction false} ScanAvoids(s: string, open: string, close: string, i: nat, ch: char)
    requires |open| > 0 && i <= |s|
    requires forall p :: i <= p < |s| ==> s[p] != ch
    ensures forall k :: 0 <= k < |Scan(s, open, close, i)| ==> Scan(s, open, close, i)[k] != ch
    decreases |s| - i
  {
    if i < |s| {
      if OccursAt(open, s, i) && FindFrom(close, s, i + |open|).Some? {
        var c := FindFrom(close, s, i + |open|).value;
        ScanSkipStep(s, open, close, i, c);
        ScanAvoids(s, open, close, c + |close|, ch);
      } else {
        ScanKeepStep(s, open, close, i);
        ScanAvoids(s, open, close, i + 1, ch);
      }
    }
  }

  /** No `open` anywhere from `i` on: nothing is deleted. */
  lemma NoOpenNoChange(s: string, open: string, close: string, i: nat)
    requires |open| > 0 && i <= |s|
    requires forall k :: i <= k ==> !OccursAt(open, s, k)
    ensures Scan(s, open, close, i) == s[i..]
  {
    ScanKeepsUnmatched(s, open, close, i);
  }

  /** If no `close` ends after position `i`, the text from `i` on survives as the tail of the
      result: in particular an unclosed `open` is not removed up to the end of the text. */
  lemma {:induction false} UnclosedTailKept(s: string, open: string, close: string, j: nat, i: nat)
    requires |open| > 0 && j <= i <= |s|
    requires forall q: nat :: i < q + |close| ==> !OccursAt(close, s, q)
    ensures EndsWith(Scan(s, open, close, j), s[i..])
    decreases i - j
  {
    if j == i {
      forall k | i <= k && OccursAt(open, s, k)
        ensures FindFrom(close, s, k + |open|).None?
      {
      }
      ScanKeepsUnmatched(s, open, close, i);
    } else if OccursAt(open, s, j) && FindFrom(close, s, j + |open|).Some? {
      var c := FindFrom(close, s, j + |open|).value;
      assert c + |close| <= i;
      UnclosedTailKept(s, open, close, c + |close|, i);
    } else {
      UnclosedTailKept(s, open, close, j + 1, i);
    }
  }

  /** An occurrence in `b` is an occurrence in `s`, shifted by `d`. */
  lemma OccursShift(pat: string, s: string, d: nat, b: string, q: nat)
    requires SuffixAt(s, d, b)
    ensures OccursAt(pat, s, d + q) <==> OccursAt(pat, b, q)
  {
    if q + |pat| <= |b| {
      forall k | 0 <= k < |pat|
        ensures (s[d + q + k] == pat[k]) == (b[q + k] == pat[k])
      {
        assert s[d + (q + k)] == b[q + k];
      }
    }
  }

  /** Searching `s` from inside its suffix `b` finds what searching `b` finds, shifted by `d`. */
  lemma {:induction false} FindShift(pat: string, s: string, d: nat, b: string, from: nat)
    requires SuffixAt(s, d, b)
    ensures FindFrom(pat, s, d + from)
            == (match FindFrom(pat, b, from) case Some(v) => Some(d + v) case None => None)
    decreases |b| - from
  {
    OccursShift(pat, s, d, b, from);
    if from + |pat| <= |b| && !OccursAt(pat, b, from) {
      FindShift(pat, s, d, b, from + 1);
    }
  }

  /** Where the scan goes after position `i`: past the matched span, or to the next character. */
  function Next(s: string, open: string, close: string, i: nat): (n: nat)
    requires |open| > 0 && i < |s|
    ensures i < n <= |s|
  {
    if OccursAt(open, s, i) then
      match FindFrom(close, s, i + |open|)
      case Some(c) => c + |close|
      case None => i + 1
    else i + 1
  }

  /** What the scan emits at position `i`: nothing for a match, else the character. */
  function Emit(s: string, open: string, close: string, i: nat): (e: string)
    requires i < |s|
    ensures |e| <= 1
  {
    if OccursAt(open, s, i) && FindFrom(close, s, i + |open|).Some? then [] else [s[i]]
  }

  /** One step of the scan, in terms of `Emit` and `Next`. */
  lemma ScanUnfold(s: string, open: string, close: string, i: nat, n: nat, e: string)
    requires |open| > 0 && i < |s|
    requires n == Next(s, open, close, i) && e == Emit(s, open, close, i)
    ensures Scan(s, open, close, i) == e + Scan(s, open, close, n)
  {
    if OccursAt(open, s, i) && FindFrom(close, s, i + |open|).Some? {
      assert Scan(s, open, close, i) == Scan(s, open, close, Next(s, open, close, i));
    }
  }

  /** A step taken inside the suffix `b` of `s` is the same step taken in `b` alone. */
  lemma StepShift(s: string, d: nat, b: string, open: string, close: string, i: nat)
    requires SuffixAt(s, d, b) && |open| > 0 && i < |b|
    ensures Next(s, open, close, d + i) == d + Next(b, open, close, i)
    ensures Emit(s, open, close, d + i) == Emit(b, open, close, i)
  {
    OccursShift(open, s, d, b, i);
    FindShift(close, s, d, b, i + |open|);
    assert s[d + i] == b[i];
  }

  /** One step of the scan of `s` at `d + i`, told in terms of the suffix `b`. */
  lemma ShiftedStep(s: string, d: nat, b: string, open: string, close: string, i: nat, n: nat, e: string)
    requires SuffixAt(s, d, b) && |open| > 0 && i < |b|
    requires n == Next(b, open, close, i) && e == Emit(b, open, close, i)
    ensures Scan(s, open, close, d + i) == e + Scan(s, open, close, d + n)
  {
    StepShift(s, d, b, open, close, i);
    ScanUnfold(s, open, close, d + i, d + n, e);
  }

  /** The scan of `s` from offset `d + i` is the scan of its suffix `b` from `i`. */
  lemma {:induction false} ScanShift(s: string, d: nat, b: string, open: string, close: string, i: nat)
    requires SuffixAt(s, d, b) && |open| > 0 && i <= |b|
    ensures Scan(s, open, close, d + i) == Scan(b, open, close, i)
    decreases |b| - i
  {
    if i < |b| {
      var n, e := Next(b, open, close, i), Emit(b, open, close, i);
      ScanShift(s, d, b, open, close, n);
      ShiftedStep(s, d, b, open, close, i, n, e);
      ScanUnfold(b, open, close, i, n, e);
    }
  }

  /** A first occurrence in the suffix `b` is a first occurrence in `s` from offset `d`. */
  lemma FoundInSuffix(pat: string, s: string, d: nat, b: string, v: nat)
    requires SuffixAt(s, d, b) && FindFrom(pat, b, 0) == Some(v)
    ensures FindFrom(pat, s, d) == Some(d + v)
  {
    FindShift(pat, s, d, b, 0);
    assert d + 0 == d;
  }

  /** The scan of `s` from offset `d` is the scan of its suffix `b` from the start. */
  lemma ScanOfSuffix(s: string, d: nat, b: string, open: string, close: string)
    requires SuffixAt(s, d, b) && |open| > 0
    ensures Scan(s, open, close, d) == Scan(b, open, close, 0)
  {
    ScanShift(s, d, b, open, close, 0);
    assert d + 0 == d;
  }

  /** The first `close` after offset `d` in `s`, found through the suffix `rest` starting there. */
  lemma CloseFound(s: string, close: string, d: nat, inner: string, rest: string)
    requires SuffixAt(s, d, rest) && StartsWith(rest, inner + close)
    requires forall q: nat :: q < |inner| ==> !OccursAt(close, inner + close, q)
    ensures FindFrom(close, s, d) == Some(d + |inner|)
  {
    FoundAfter(close, rest, inner);
    FoundInSuffix(close, s, d, rest, |inner|);
  }

  /** With the first `open` at `o` and the first `close` after it at `c`, the scan keeps what
      precedes `o` and continues from just past the `close`. */
  lemma SpanRemoved(s: string, open: string, close: string, o: nat, c: nat)
    requires |open| > 0
    requires FindFrom(open, s, 0) == Some(o) && FindFrom(close, s, o + |open|) == Some(c)
    ensures Scan(s, open, close, 0) == s[0..o] + Scan(s, open, close, c + |close|)
  {
    DeletesFirstBlock(s, open, close, 0, o, c);
  }

  /** `s` laid out as `pre`, `open`, `inner`, `close`, `post`, where `pre` holds no `open` and
      `inner` no `close`: the first `open` sits right after `pre`, the first `close` after it right
      after `inner`, and the span between them is cut out. */
  lemma LaidOutSpanRemoved(s: string, open: string, close: string, pre: string, inner: string, rest: string, post: string)
    requires |open| > 0
    requires StartsWith(s, pre + open) && SuffixAt(s, |pre| + |open|, rest)
    requires StartsWith(rest, inner + close) && SuffixAt(s, |pre| + |open| + |inner| + |close|, post)
    requires forall q: nat :: q < |pre| ==> !OccursAt(open, pre + open, q)
    requires forall q: nat :: q < |inner| ==> !OccursAt(close, inner + close, q)
    ensures Scan(s, open, close, 0) == s[0..|pre|] + Scan(post, open, close, 0)
  {
    FoundAfter(open, s, pre);
    CloseFound(s, close, |pre| + |open|, inner, rest);
    SpanRemoved(s, open, close, |pre|, |pre| + |open| + |inner|);
    ScanOfSuffix(s, |pre| + |open| + |inner| + |close|, post, open, close);
    Replace(Scan(s, open, close, 0), s[0..|pre|], Scan(s, open, close, |pre| + |open| + |inner| + |close|),
            Scan(post, open, close, 0));
  }

  /** Replacing the tail of a concatenation by an equal one. */
  lemma Replace(x: string, p: string, y: string, z: string)
    requires x == p + y && y == z
    ensures x == p + z
  {
  }

  /** How the five parts sit in their concatenation. */
  lemma FiveParts(pre: string, open: string, inner: string, close: string, post: string)
    ensures StartsWith(pre + open + inner + close + post, pre + open)
    ensures SuffixAt(pre + open + inner + close + post, |pre| + |open|, inner + close + post)
    ensures StartsWith(inner + close + post, inner + close)
    ensures SuffixAt(pre + open + inner + close + post, |pre| + |open| + |inner| + |close|, post)
    ensures (pre + open + inner + close + post)[0..|pre|] == pre
  {
  }

  /** A complete span is cut out: the text before the first `open` is kept, everything from there
      to the end of the first `close` after it is deleted, and the rest is scanned on its own. */
  lemma BlockRemoved(pre: string, open: string, inner: string, close: string, post: string)
    requires |open| > 0
    requires forall q: nat :: q < |pre| ==> !OccursAt(open, pre + open, q)
    requires forall q: nat :: q < |inner| ==> !OccursAt(close, inner + close, q)
    ensures Scan(pre + open + inner + close + post, open, close, 0) == pre + Scan(post, open, close, 0)
  {
    FiveParts(pre, open, inner, close, post);
    LaidOutSpanRemoved(pre + open + inner + close + post, open, close, pre, inner, inner + close + post, post);
  }
}

=== FILE: text.dfy ===
/** Character classes, searching and Python's `str.strip()` over `seq<char>` strings. */
module Text {

  datatype Option<+T> = None | Some(value: T)

  /** The characters Python's `str.isspace()` accepts. `str.strip()` with no argument and the
      regular-expression class `\s` of a `str` pattern use the same set. */
  predicate IsSpace(c: char) {
    || ('\t' <= c <= '\r')
    || ('\U{1c}' <= c <= '\U{1f}')
    || c == ' '
    || c == '\U{85}'
    || c == '\U{a0}'
    || c == '\U{1680}'
    || ('\U{2000}' <= c <= '\U{200a}')
    || c == '\U{2028}'
    || c == '\U{2029}'
    || c == '\U{202f}'
    || c == '\U{205f}'
    || c == '\U{3000}'
  }

  /** `pat` occurs in `s` starting at position `q`. */
  predicate OccursAt(pat: string, s: string, q: nat) {
    q + |pat| <= |s| && forall k :: 0 <= k < |pat| ==> s[q + k] == pat[k]
  }

  /** The first position at or after `from` where `pat` occurs in `s`, if any. */
  function FindFrom(pat: string, s: string, from: nat): (r: Option<nat>)
    ensures r.Some? ==> from <= r.value && OccursAt(pat, s, r.value)
    ensures r.Some? ==> forall q :: from <= q < r.value ==> !OccursAt(pat, s, q)
    ensures r.None? ==> forall q :: from <= q ==> !OccursAt(pat, s, q)
    decreases |s| - from
  {
    if from + |pat| > |s| then None
    else if OccursAt(pat, s, from) then Some(from)
    else FindFrom(pat, s, from + 1)
  }

  /** Python's `pat in s` for two strings. */
  predicate Contains(s: string, pat: string) {
    FindFrom(pat, s, 0).Some?
  }

  /** `pat in s` holds exactly when `pat` occurs somewhere in `s`. */
  lemma ContainsIff(s: string, pat: string)
    ensures Contains(s, pat) <==> exists q: nat :: OccursAt(pat, s, q)
  {
    if exists q: nat :: OccursAt(pat, s, q) {
      var q: nat :| OccursAt(pat, s, q);
      OccursAtContains(pat, s, q);
    }
  }

  lemma OccursAtContains(pat: string, s: string, q: nat)
    requires OccursAt(pat, s, q)
    ensures Contains(s, pat)
  {
    var r := FindFrom(pat, s, 0);
  }

  /** The first `|t|` characters of `s` are `t`. */
  ghost predicate StartsWith(s: string, t: string) {
    |t| <= |s| && forall k {:trigger t[k]} :: 0 <= k < |t| ==> s[k] == t[k]
  }

  /** `b` is the part of `s` from offset `d` on. */
  ghost predicate SuffixAt(s: string, d: nat, b: string) {
    |s| == d + |b| && s[d..] == b
  }

  /** An occurrence that lies inside a prefix is an occurrence in that prefix. */
  lemma OccursInPrefix(pat: string, s: string, t: string, q: nat)
    requires StartsWith(s, t) && q + |pat| <= |t|
    ensures OccursAt(pat, s, q) <==> OccursAt(pat, t, q)
  {
    forall k | 0 <= k < |pat|
      ensures (s[q + k] == pat[k]) == (t[q + k] == pat[k])
    {
    }
  }

  /** The search stops at the first occurrence. */
  lemma FindFromFirst(pat: string, s: string, from: nat, v: nat)
    requires from <= v && OccursAt(pat, s, v)
    requires forall q :: from <= q < v ==> !OccursAt(pat, s, q)
    ensures FindFrom(pat, s, from) == Some(v)
  {
  }

  /** When `s` starts with `t + pat` and `pat` does not occur earlier in `t + pat`, the first
      occurrence of `pat` in `s` is the one right after `t`. */
  lemma FoundAfter(pat: string, s: string, t: string)
    requires StartsWith(s, t + pat)
    requires forall q: nat :: q < |t| ==> !OccursAt(pat, t + pat, q)
    ensures FindFrom(pat, s, 0) == Some(|t|)
  {
    forall q: nat | q < |t|
      ensures !OccursAt(pat, s, q)
    {
      OccursInPrefix(pat, s, t + pat, q);
    }
    OccursInPrefix(pat, s, t + pat, |t|);
    FindFromFirst(pat, s, 0, |t|);
  }

  /** `t` ends with `suffix`. */
  ghost predicate EndsWith(t: string, suffix: string) {
    |suffix| <= |t| && SuffixAt(t, |t| - |suffix|, suffix)
  }

  /** No leading and no trailing whitespace. */
  ghost predicate IsTrimmed(r: string) {
    |r| == 0 || (!IsSpace(r[0]) && !IsSpace(r[|r| - 1]))
  }

  /** `r` is `s` with exactly the whitespace before offset `a` and after `a + |r|` removed. */
  ghost predicate StripsTo(s: string, a: nat, r: string) {
    && a + |r| <= |s|
    && s[a..a + |r|] == r
    && (forall k :: 0 <= k < a ==> IsSpace(s[k]))
    && (forall k :: a + |r| <= k < |s| ==> IsSpace(s[k]))
    && IsTrimmed(r)
  }

  /** The first index at or after `i` that does not hold whitespace, or `|s|`. */
  function SkipSpaces(s: string, i: nat): (a: nat)
    requires i <= |s|
    ensures i <= a <= |s|
    ensures forall k :: i <= k < a ==> IsSpace(s[k])
    ensures a < |s| ==> !IsSpace(s[a])
    decreases |s| - i
  {
    if i < |s| && IsSpace(s[i]) then SkipSpaces(s, i + 1) else i
  }

  /** Walking back from `j`, but not below `lo`: the index just after the last non-space. */
  function SkipSpacesBack(s: string, j: nat, lo: nat): (b: nat)
    requires lo <= j <= |s|
    ensures lo <= b <= j
    ensures forall k :: b <= k < j ==> IsSpace(s[k])
    ensures b > lo ==> !IsSpace(s[b - 1])
    decreases j
  {
    if j > lo && IsSpace(s[j - 1]) then SkipSpacesBack(s, j - 1, lo) else j
  }

  /** Python's `s.strip()`: the whitespace at both ends removed, nothing else touched. */
  function Trim(s: string): (r: string)
    ensures StripsTo(s, SkipSpaces(s, 0), r)
  {
    var a := SkipSpaces(s, 0);
    var b := SkipSpacesBack(s, |s|, a);
    s[a..b]
  }

  /** The stripped form of a string is unique: whatever meets `StripsTo` is what `Trim` returns. */
  lemma {:induction false} StripsToUnique(s: string, a: nat, r: string)
    requires StripsTo(s, a, r)
    ensures r == Trim(s)
  {
    var b := SkipSpaces(s, 0);
    var t := Trim(s);
    assert StripsTo(s, b, t);
    assert |r| > 0 ==> r[0] == s[a] && r[|r| - 1] == s[a + |r| - 1];
    assert |t| > 0 ==> t[0] == s[b] && t[|t| - 1] == s[b + |t| - 1];
  }

  /** Stripping twice is stripping once. */
  lemma TrimIdempotent(s: string)
    ensures Trim(Trim(s)) == Trim(s)
  {
    var t := Trim(s);
    StripsToUnique(t, 0, t);
  }

  /** A string that neither starts nor ends with whitespace is left alone. */
  lemma TrimmedIsFixed(s: string)
    requires IsTrimmed(s)
    ensures Trim(s) == s
  {
    StripsToUnique(s, 0, s);
  }

  /** Stripping a string that starts with a non-space character keeps that character first. */
  lemma TrimKeepsFirst(s: string)
    requires |s| > 0 && !IsSpace(s[0])
    ensures |Trim(s)| > 0 && Trim(s)[0] == s[0]
  {
    var a := SkipSpaces(s, 0);
    var r := Trim(s);
    assert StripsTo(s, a, r);
  }

  /** Stripping keeps an occurrence of a pattern that neither starts nor ends with whitespace. */
  lemma OccurrenceSurvivesTrim(pat: string, s: string, p: nat)
    requires OccursAt(pat, s, p) && |pat| > 0
    requires !IsSpace(pat[0]) && !IsSpace(pat[|pat| - 1])
    ensures Contains(Trim(s), pat)
  {
    var a := SkipSpaces(s, 0);
    var r := Trim(s);
    assert s[p + 0] == pat[0];
    assert s[p + (|pat| - 1)] == pat[|pat| - 1];
    assert a <= p;
    assert p + |pat| <= a + |r|;
    forall k | 0 <= k < |pat|
      ensures r[p - a + k] == pat[k]
    {
      assert r[p - a + k] == s[p + k];
    }
    assert OccursAt(pat, r, p - a);
    OccursAtContains(pat, r, p - a);
  }

  /** An occurrence in a slice is an occurrence in the whole string, shifted by the slice's start. */
  lemma OccursInSlice(pat: string, s: string, a: nat, b: nat, q: nat)
    requires a <= b <= |s|
    ensures OccursAt(pat, s[a..b], q) ==> OccursAt(pat, s, a + q)
  {
    if OccursAt(pat, s[a..b], q) {
      forall k | 0 <= k < |pat|
        ensures s[a + q + k] == pat[k]
      {
        assert s[a..b][q + k] == pat[k];
      }
    }
  }

  /** A pattern absent from a string is absent from each of its slices. */
  lemma SliceLacks(s: string, a: nat, b: nat, pat: string, t: string)
    requires a <= b <= |s| && t == s[a..b] && !Contains(s, pat)
    ensures !Contains(t, pat)
  {
    forall q: nat
      ensures !OccursAt(pat, s[a..b], q)
    {
      OccursInSlice(pat, s, a, b, q);
      assert !OccursAt(pat, s, a + q);
    }
  }
}
